=== FILE: README.md ===
# zero2prod newsletter service — a Dafny model

This project models the core of a newsletter web service written in Rust with
Rocket and diesel. The model covers:

- **Signup.** `POST /subscriptions` validates a form, stores a subscriber and
  sends a welcome message with a confirmation link.
- **Confirmation.** `GET /subscriptions/confirm` maps a token to a subscriber
  and marks that subscriber confirmed.
- **Publishing.** The newsletter handler fetches the confirmed subscribers and
  sends one issue to each valid address.
- **Request guards.** `BasicAuth` parses an `Authorization: Basic` header.
  `AuthenticatedUser` looks the credentials up in the users table.
- **Support code:**
  - the `OrStatus` conversions;
  - the 401 and 422 catchers;
  - `run_transaction` on the database connection;
  - the string logic of the settings: the environment name, the connection
    URLs, the SSL mode and the sender address.

Each Rust source file has its own Dafny module:

| Dafny file | Rust source | form |
|---|---|---|
| `basic_auth.dfy` | `src/guards/basic_auth.rs` | pure functions |
| `authenticated_user.dfy` | `src/guards/authenticated_user.rs` | pure functions |
| `or_status.dfy` | `src/guards/mod.rs` | pure functions |
| `subscriptions.dfy` | `src/routes/subscriptions.rs` | methods that change a store class and an outbox class |
| `subscriptions_confirm.dfy` | `src/routes/subscriptions_confirm.rs` | methods that change a store class |
| `newsletters.dfy` | `src/routes/newsletters.rs` | methods that change an outbox class; the fan-out loop is a `while` loop with invariants |
| `startup.dfy` | `src/startup.rs` | a class `NewsletterDbConn` holding the two tables, and its `RunTransaction` |
| `configuration.dfy` | `src/configuration.rs` | pure functions |

Shared modules:

- **Common:** Option, Result, anyhow-style error chains, HTTP statuses, Rocket outcomes and the 401 response.
- **Models:** table rows and key constraints.
- **Domain:** the validated subscriber values.
- **Email:** the outbox.
- **Base64:** section 4 of RFC 4648.
- **Utf8:** section 4 of RFC 3629.

How the model stands in for what it cannot see:

- **Database and email faults** are parameters: `Option<DbError>`, `Option<AnyError>`, or a function from send index to fault.
- **Randomness and the clock** are parameters: `Uuid::new_v4` becomes `id` and `Utc::now` becomes `now`.
- **The subscriber parse rules** are parameters, given as a `Domain.Validator`: the set of accepted inputs and the message for a refused one.

## Model

| member | source | states |
|---|---|---|
| Common.UnauthorizedResponse | src/catchers/unauthorized.rs:4-7 | the response the `unauthorized_request_credentials` catcher builds is a 401 carrying `WWW-Authenticate: Basic realm="publish"` (the catcher is not registered) |
| Base64.SextetChar | src/guards/basic_auth.rs:35-36 | no 6-bit value encodes as the padding character |
| Base64.SextetValue | src/guards/basic_auth.rs:35-36 | a character decodes only to the value that encodes as it; padding decodes to nothing |
| Base64.SextetRoundTrip | src/guards/basic_auth.rs:35-36 | every 6-bit value reads back from its character |
| Base64.Encode | src/guards/basic_auth.rs:35-36 | the standard padded alphabet gives 4 characters per started group of 3 octets |
| Base64.DecodeEncode | src/guards/basic_auth.rs:35-36 | decoding the encoding of any octets gives those octets back |
| Base64.EncodeDecode | src/guards/basic_auth.rs:35-36 | any accepted text is the encoding of what it decodes to |
| Base64.DecodeIsInverse | src/guards/basic_auth.rs:35-36 | decoding `s` gives `b` if and only if `b` encodes to `s` |
| Base64.Decode | src/guards/basic_auth.rs:35-36 | accepted text has 4 characters for each started group of 3 decoded octets |
| Base64.RejectsNonEncodings | src/guards/basic_auth.rs:35-36 | text that is the encoding of no octets is refused |
| Utf8.EncodeChar | src/guards/basic_auth.rs:38-39 | each scalar value takes 1 to 4 octets |
| Utf8.Encode | src/guards/basic_auth.rs:38-39 | the encoding has at least as many octets as the text has characters |
| Utf8.DecodeFirst | src/guards/basic_auth.rs:38-39 | a decoded character uses 1 to 4 of the available octets |
| Utf8.DecodeFirstEncode | src/guards/basic_auth.rs:38-39 | the decoder reads a character's encoding back as that character, whatever follows it |
| Utf8.EncodeDecodeFirst | src/guards/basic_auth.rs:38-39 | the octets the decoder takes for one character are exactly that character's encoding |
| Utf8.Decode | src/guards/basic_auth.rs:38-39 | accepted octets decode to at least a quarter and at most all of their number in characters |
| Utf8.DecodeEncode | src/guards/basic_auth.rs:38-39 | `String::from_utf8` of an encoded string gives that string back |
| Utf8.EncodeDecode | src/guards/basic_auth.rs:38-39 | any accepted octets are the encoding of the decoded text |
| Utf8.DecodeIsInverse | src/guards/basic_auth.rs:38-39 | decoding `b` gives `s` if and only if `s` encodes to `b` |
| BasicAuthGuard.BasicAuthError.Message | src/guards/basic_auth.rs:29-50 | every error has a non-empty message; all but the missing-header one end with a full stop |
| BasicAuthGuard.MessagesDiffer | src/guards/basic_auth.rs:29-50 | two errors have the same message exactly when they are the same error |
| BasicAuthGuard.SplitAtFirstColon | src/guards/basic_auth.rs:41-51 | `splitn(2, ':')`: the first part has no colon and, with a colon, the text is first part + ':' + second part; no second part exactly when there is no colon |
| BasicAuthGuard.FromRequestResult | src/guards/basic_auth.rs:25-57 | no header means "missing"; no `Basic ` prefix means "not Basic"; the missing-username error never occurs; an accepted username has no colon |
| BasicAuthGuard.FromRequest | src/guards/basic_auth.rs:17-22 | the guard never forwards; it succeeds exactly when parsing succeeds, with the same credentials; every failure is a 401 carrying the parse error |
| BasicAuthGuard.SplitAfterColonFree | src/guards/basic_auth.rs:41-51 | a colon-free username, a colon and any password split back into the two parts |
| BasicAuthGuard.StripScheme | src/guards/basic_auth.rs:31-33 | stripping `Basic ` from `Basic ` + rest gives rest |
| BasicAuthGuard.ParsesHeaderFor | src/guards/basic_auth.rs:25-57 | round trip: the header built from credentials as section 2 of RFC 7617 prescribes parses back to those credentials when the username has no colon |
| BasicAuthGuard.AcceptsExactlyHeaderFor | src/guards/basic_auth.rs:25-57 | a header yields `(u, p)` if and only if it is the canonical header for `(u, p)` and `u` has no colon |
| BasicAuthGuard.RejectsNonBase64 | src/guards/basic_auth.rs:35-36 | a remainder that encodes no octets is refused as invalid base 64 |
| BasicAuthGuard.RejectsNonUtf8 | src/guards/basic_auth.rs:38-39 | well-encoded octets that are not UTF-8 are refused as invalid UTF-8 |
| BasicAuthGuard.RejectsMissingColon | src/guards/basic_auth.rs:48-51 | decoded text without a colon is refused for its missing password |
| OrStatus.OptionOrStatus | src/guards/mod.rs:27-35 | `Some(x)` becomes `Ok(x)`; `None` becomes the status with a bare message |
| OrStatus.ResultOrStatus | src/guards/mod.rs:14-25 | `Ok` keeps its value; `Err(e)` becomes the status with `e` under the context message |
| OrStatus.ResultOrStatusKeepsCause | src/guards/mod.rs:14-25 | the original error stays the root cause of the chain |
| AuthenticatedUserGuard.FirstMatch | src/guards/authenticated_user.rs:47-54 | `.first().optional()`: absent exactly when no row matches username and password; otherwise the id of the first matching row |
| AuthenticatedUserGuard.FromRequestResult | src/guards/authenticated_user.rs:40-63 | success exactly when the query works and some row matches; the user carries the sent username and a matching row's id; a query error keeps its cause under the context; otherwise the error is "Invalid username or password." |
| AuthenticatedUserGuard.FromRequest | src/guards/authenticated_user.rs:24-37 | a pool failure is a 500; a forward passes through; a bad header is a 401 "not authenticated"; success exactly when the header parses and the lookup matches; every other failure is a 401 |
| AuthenticatedUserGuard.AuthenticatedUserHasMatchingRow | src/guards/authenticated_user.rs:47-60 | every authenticated user has a row with the sent username and password |
| AuthenticatedUserGuard.NoMatchIsOneOutcome | src/guards/authenticated_user.rs:47-54 | all credentials that match no row get one and the same 401 |
| AuthenticatedUserGuard.UnknownUserLooksLikeWrongPassword | src/guards/authenticated_user.rs:47-54 | an unknown username and a wrong password cannot be told apart by the outcome |
| AuthenticatedUserGuard.QueryFailureIsUnauthorized | src/guards/authenticated_user.rs:34-36 | a failing lookup query is a 401, not a 500, with its cause kept |
| Domain.ParseEmail | src/routes/subscriptions.rs:24 | accepted exactly when the rule accepts; the address is the input; otherwise the rule's message |
| Domain.ParseName | src/routes/subscriptions.rs:25 | accepted exactly when the rule accepts; the name is the input; otherwise the rule's message |
| Models.AppendKeepsKeys | tests/api/subscriptions.rs:29-47 | adding a row with a fresh id and a fresh email keeps both keys unique |
| Email.Outbox.constructor | tests/api/helpers.rs:125-153 | a new outbox holds no messages |
| Email.Outbox.SendEmail | src/email/email.rs:3-12 | a successful send appends exactly its message; a failed send appends nothing and returns its error |
| Startup.NewsletterDbConn.constructor | src/startup.rs:61-62 | the store starts with the given tables |
| Startup.NewsletterDbConn.Snapshot | src/schema.rs:1-16 | the abstraction of the store used in contracts: the pair of its two tables, the `subscriptions` and `subscription_tokens` tables the schema declares |
| Startup.NewsletterDbConn.RunTransaction | src/startup.rs:72-90 | success exactly when begin, body and commit succeed, with the body's value and tables; the body's own error reaches the caller unchanged; only a transaction error is mapped; on any error the tables are as before |
| Subscriptions.ReadForm | src/routes/subscriptions.rs:14-18 | a form is read exactly when both fields are present; otherwise 422 |
| Subscriptions.Catch | src/catchers/unprocessable_entity.rs:5-8 | a 422 becomes a 400; other statuses are kept |
| Subscriptions.TryFrom | src/routes/subscriptions.rs:20-28 | valid exactly when both the email and the name are accepted; the email is checked first, and the first refusal is the error |
| Subscriptions.ConfirmationEmail | src/routes/subscriptions.rs:66-83 | the welcome message goes to the subscriber with subject "Welcome!", and both bodies contain the confirmation link |
| Subscriptions.NewRow | src/routes/subscriptions.rs:98-104 | the stored row has the fresh id, the time, the email and name, and status "confirmed" |
| Subscriptions.InsertSubscriber | src/routes/subscriptions.rs:89-108 | the insert succeeds exactly without a fault or key conflict, appending the one row and returning 1; a refused insert changes nothing; unique keys are kept |
| Subscriptions.SendConfirmationEmail | src/routes/subscriptions.rs:66-83 | a send appends the welcome message; a failed send appends nothing |
| Subscriptions.Subscribe | src/routes/subscriptions.rs:40-60 | an incomplete or invalid form is a 400 and changes nothing; a failed insert, including a duplicate email, is a 500 and sends nothing; a failed send is a 500 that keeps the row; otherwise 200 with one row and one message; unique keys are kept |
| SubscriptionsConfirm.SubscriberIdForToken | src/routes/subscriptions_confirm.rs:54-59 | absent exactly when no token row carries the token; otherwise the subscriber of the first row that does |
| SubscriptionsConfirm.MarkConfirmed | src/routes/subscriptions_confirm.rs:36-38 | the rows with the id get status "confirmed"; the other rows are unchanged |
| SubscriptionsConfirm.MarkConfirmedKeepsOtherColumns | src/routes/subscriptions_confirm.rs:36-38 | only the status column changes, so the keys stay unique |
| SubscriptionsConfirm.MarkConfirmedIdempotent | src/routes/subscriptions_confirm.rs:36-38 | confirming twice is the same as confirming once |
| SubscriptionsConfirm.GetSubscriberIdFromToken | src/routes/subscriptions_confirm.rs:49-66 | the query's error, or the subscriber the token names |
| SubscriptionsConfirm.ConfirmSubscriber | src/routes/subscriptions_confirm.rs:30-46 | an update marks the subscriber confirmed; a failed update changes nothing |
| SubscriptionsConfirm.Confirm | src/routes/subscriptions_confirm.rs:9-27 | no token is 400; a failed lookup is 500; an unknown token is 401; a failed update is 500; otherwise the subscriber is confirmed; the tokens never change, and on any error the subscriptions don't either |
| Newsletters.RespondTo | src/routes/newsletters.rs:74-83 | every publish error is a 500 |
| Newsletters.ConfirmedEmails | src/routes/newsletters.rs:94-97 | an email is selected exactly when some row with status "confirmed" stores it; there are at most as many as rows |
| Newsletters.ParseEntry | src/routes/newsletters.rs:101-104 | an entry is a subscriber exactly when the email parses, carrying that address; otherwise the parser's message |
| Newsletters.GetConfirmedSubscribers | src/routes/newsletters.rs:89-107 | the query's error, or one entry per confirmed row, in order; an entry is valid exactly when its email is accepted, and then carries that address |
| Newsletters.Recipients | src/routes/newsletters.rs:36-58 | the valid entries number at most the entries |
| Newsletters.Issues | src/routes/newsletters.rs:39-45 | one issue message per recipient, in order, each with the title and both bodies |
| Newsletters.FirstFailure | src/routes/newsletters.rs:39-49 | the index of the first failing send, with every earlier send succeeding |
| Newsletters.ValidConfirmedEmails | src/routes/newsletters.rs:89-107 | the reference list is at most as long as the rows |
| Newsletters.Addresses | src/routes/newsletters.rs:36-58 | the address of each recipient, in order |
| Newsletters.ValidConfirmedEmailsMembers | src/routes/newsletters.rs:89-107 | an email is reached if and only if it is valid and stored on a confirmed row |
| Newsletters.RecipientsAreValidConfirmed | src/routes/newsletters.rs:36-58 | the addresses the loop sends to are exactly the confirmed rows with a valid address, in row order |
| Newsletters.SendCount | src/routes/newsletters.rs:36-58 | when every send succeeds, one message goes to each confirmed row with a valid address |
| Newsletters.RecipientsAppend | src/routes/newsletters.rs:37-57 | one more entry adds its address exactly when it is valid |
| Newsletters.RecipientsStep | src/routes/newsletters.rs:37-57 | how entry `i` extends the recipients before it |
| Newsletters.RecipientsSplit | src/routes/newsletters.rs:37-57 | the recipients before entry `i` are a prefix, and entry `i`'s address follows them |
| Newsletters.RecipientsConcat | src/routes/newsletters.rs:37-57 | the recipients of concatenated entries are the concatenated recipients |
| Newsletters.IssuesAppend | src/routes/newsletters.rs:39-45 | one more recipient adds one message |
| Newsletters.StopsAtFailedSend | src/routes/newsletters.rs:39-49 | the send that fails after only successes is the first failure, and the messages so far are those of the earlier recipients |
| Newsletters.AllSendsSucceeded | src/routes/newsletters.rs:36-59 | with no failing send, every recipient is reached |
| Newsletters.EntriesStep | src/routes/newsletters.rs:94-106 | the entries fetched from the rows are those of all but the last row, then the last row's entry when it is confirmed |
| Newsletters.AddressesAppend | src/routes/newsletters.rs:36-58 | one more recipient adds its address |
| Newsletters.OutboxGrows | src/routes/newsletters.rs:39-49 | one more successful send extends the outbox by that recipient's issue |
| Newsletters.ProgressTakes | src/routes/newsletters.rs:38-49 | a valid entry whose send succeeds keeps the loop state: one more send, one more message |
| Newsletters.ProgressSkips | src/routes/newsletters.rs:51-56 | an invalid entry is skipped: the loop state holds with nothing sent |
| Newsletters.ProgressStops | src/routes/newsletters.rs:39-49 | a send that fails after only successes is the first failure of all the recipients' sends, and it belongs to that entry |
| Newsletters.ProgressEnds | src/routes/newsletters.rs:36-59 | after the last entry no send failed, and every recipient got the issue |
| Newsletters.SendIssue | src/routes/newsletters.rs:36-59 | the outbox gains the issue for each recipient before the first failing send; the result is `Ok` when none fails, else an error naming that recipient |
| Newsletters.PublishNewsletter | src/routes/newsletters.rs:25-60 | a failed fetch is an error with the fetch context and sends nothing; otherwise the issue goes to the valid confirmed subscribers in order until the first failed send, whose error names that recipient |
| Configuration.AsStr | src/configuration.rs:50-57 | the name is "local" or "production", and "local" exactly for Local |
| Configuration.Lower | src/configuration.rs:63 | A to Z map to a to z; every other character is kept |
| Configuration.ToLowercase | src/configuration.rs:63 | the lower-cased string has the same length, character by character |
| Configuration.TryFrom | src/configuration.rs:59-72 | an accepted name lower-cases to that environment's name; a refusal message starts with the lower-cased input |
| Configuration.LowerMatches | src/configuration.rs:63 | a character lower-cases to a letter exactly when it is that letter or its capital |
| Configuration.ToLowercaseIs | src/configuration.rs:63 | a string lower-cases to a lower-case word exactly when it equals the word ignoring case |
| Configuration.TryFromIgnoresCase | src/configuration.rs:62-71 | an environment is read exactly from its name in any mix of cases |
| Configuration.AsStrRoundTrip | src/configuration.rs:50-72 | an environment's name reads back as that environment |
| Configuration.SslMode | src/configuration.rs:99-104 | "require" exactly when SSL is required, otherwise "prefer" |
| Configuration.Digit | src/configuration.rs:81 | a digit's character is between '0' and '9' |
| Configuration.Decimal | src/configuration.rs:81 | a port prints as one or more digits, without a leading zero |
| Configuration.DecimalRoundTrip | src/configuration.rs:81 | the printed port denotes the port |
| Configuration.ConnectionString | src/configuration.rs:75-85 | the database URL is exactly `postgres://`, user `:` password `@` host `:`, the decimal port, `/` and the database name, then the SSL-mode query |
| Configuration.ConnectionStringWithoutDatabase | src/configuration.rs:87-96 | the server URL is exactly `postgres://`, user `:` password `@` host `:`, the decimal port, then the SSL-mode query |
| Configuration.ConnectionStringsAgree | src/configuration.rs:74-97 | both URLs start with `postgres://` and end with the SSL-mode query; the server URL is the database URL with `/` + database name removed just before the query |
| Configuration.Sender | src/configuration.rs:44-48 | the sender is the configured address exactly when the email rule accepts it; otherwise the rule's message |

## Where the model follows the code rather than the service's design

- **Signup status.** Signup stores status "confirmed" (`src/routes/subscriptions.rs:103`), not a pending status.
- **No tokens at signup.** No token is generated or stored, and the insert is not a transaction. The confirmation link is a fixed URL with no token. So `Confirm` can only succeed for tokens already in the table.
- **Guard lookup.** The guard compares the password column to the sent password as plain text: there is no hash and no equal-time check. A failing lookup query is a 401, not a 500.
- **Failed sends.** One failed send ends publishing with a 500, and the later recipients get nothing. Subscribers with invalid addresses are skipped.
- **Publish auth.** The publish handler takes the `BasicAuth` guard, not `AuthenticatedUser`, so it checks no credentials. The route is not mounted (`src/startup.rs:51`).
- **401 catcher.** It is not registered (`src/startup.rs:52`). `Common.UnauthorizedResponse` models it on its own.

## Left out

- get_configuration (`src/configuration.rs:106-121`): file and environment-variable loading are I/O.
- Application::build and named_fairing: these are Rocket and pool wiring. They are shown only as the routes and catchers used above.
- The port saver, main, the health check and the SES email client are framework and network code outside the model.
- Async execution, connection pooling, concurrency and tracing.
- Header lookup: the `Authorization` header is given as an optional value. Rocket's case-insensitive header lookup and its guard ordering are not part of this model.
- The domain parse rules: `SubscriberEmail::parse` and `SubscriberName::parse` are not part of this model. They are parameters, and the model assumes they keep an accepted input unchanged. The model also assumes that `Display` for `SubscriberEmail` prints exactly the address, which the send-failure context of `publish_newsletter` (`src/routes/newsletters.rs:48`) relies on.
- Base64.Decode is the strict padded decoder of section 4 of RFC 4648. Like the base64 crate with its `STANDARD` configuration, it refuses non-zero trailing bits. Unlike the crate, it also refuses a final quantum that is unpadded or only partly padded (`YTpiYw` or `YQ=`), which the crate accepts. So a client that leaves out the `=` padding is refused by the model but accepted by the program.
- Base64.DecodeIsInverse is about the strict padded decoder; for the crate it holds only for text whose length is a multiple of 4.
- Base64.RejectsNonEncodings is about the strict padded decoder; unpadded text that the crate decodes is refused here.
- BasicAuthGuard.AcceptsExactlyHeaderFor describes the guard for headers whose base 64 part is padded. An unpadded header that the crate accepts is refused here.
- BasicAuthGuard.RejectsNonBase64 describes the guard for headers whose base 64 part is padded. An unpadded remainder that the crate decodes is refused here.
- Configuration.ToLowercase and Configuration.Lower map only A to Z, not all of Unicode. The set of accepted names is the same, because no non-ASCII character lower-cases into "local" or "production" in a way that matters to the result (U+212A, the Kelvin sign, becomes 'k', which occurs in neither word). The error message for non-ASCII input can differ.
- BasicAuthGuard.FromRequestResult: an error is the bare context message. The cause that `.context(...)` keeps under it, base64's `DecodeError` or `FromUtf8Error` (`src/guards/basic_auth.rs:35-39`), is not modelled; it only reaches the log.
- OrStatus.ResultOrStatus: the error type is fixed to a database error rather than any `std::error::Error`.
- Startup.NewsletterDbConn.RunTransaction: a failing rollback and nested transactions are not modelled. Begin and commit faults are parameters.
- Row order: queries return rows in table order. SQL gives no order guarantee, so the first match and the send order are in table order here.
- The users table is given as a list of (user id, username, password) rows. Password hashing in the test helpers is not part of this model.
- The email client's timeout (`timeout_milliseconds`) is carried but has no effect in the model.
- Newsletters.SendIssue is the fan-out loop of `publish_newsletter` split into its own method. It has the same behaviour. Its loop state is the ghost predicate `Progress`.
- BasicAuthGuard.FromRequestResult: the missing-username error cannot occur (`splitn` always yields a first part), so the model never produces it; its contract states this.
- Newsletters.PublishNewsletter models only what happens once the `BasicAuth` guard has succeeded. Rocket runs that guard first: a missing or malformed header is a 401 and nothing is sent, which `BasicAuthGuard.FromRequest` models. The handler never reads the credentials, and the route is not mounted anyway (`src/startup.rs:51`).

=== FILE: authenticated_user.dfy ===
/** The `AuthenticatedUser` request guard (src/guards/authenticated_user.rs):
    it needs a database connection and Basic credentials, and succeeds when a
    row of the users table has exactly that username and password. */
module AuthenticatedUserGuard {
  import opened Common
  import BasicAuthGuard

  /** A row of the users table. The password column holds the password as
      the client sends it: the guard compares it for equality. */
  datatype User = User(userId: Uuid, username: string, password: string)

  /** The view of the database the guard's query runs against: the users
      table, and the failure the query meets, if any. */
  datatype UsersConnection = UsersConnection(users: seq<User>, queryFailure: Option<DbError>)

  /** A request whose credentials matched a user row. */
  datatype AuthenticatedUser = AuthenticatedUser(userId: Uuid, username: string)

  const QueryFailedContext := "Failed to perform a query to validate auth credentials."
  const InvalidCredentials := "Invalid username or password."
  const NoConnection := "Failed to retrieve a connection from the DB pool."
  const NotAuthenticated := "User has not been authenticated."

  predicate Matches(user: User, username: string, password: string) {
    user.username == username && user.password == password
  }

  predicate SomeUserMatches(users: seq<User>, username: string, password: string) {
    exists i :: 0 <= i < |users| && Matches(users[i], username, password)
  }

  /** The id of the first row (in table order) with the given username and
      password, if there is one. */
  function FirstMatch(users: seq<User>, username: string, password: string): (r: Option<Uuid>)
    ensures r.None? <==> !SomeUserMatches(users, username, password)
    ensures r.Some? ==>
      exists i :: 0 <= i < |users| && Matches(users[i], username, password) && users[i].userId == r.value
        && forall j :: 0 <= j < i ==> !Matches(users[j], username, password)
  {
    if users == [] then None
    else if Matches(users[0], username, password) then Some(users[0].userId)
    else
      var r := FirstMatch(users[1..], username, password);
      if r.Some? then
        var i :| 0 <= i < |users[1..]| && Matches(users[1..][i], username, password)
          && users[1..][i].userId == r.value
          && forall j :: 0 <= j < i ==> !Matches(users[1..][j], username, password);
        assert users[i + 1] == users[1..][i];
        assert forall j :: 0 < j < i + 1 ==> users[j] == users[1..][j - 1];
        r
      else
        assert forall i :: 0 < i < |users| ==> users[i] == users[1..][i - 1];
        r
  }

  /** The user the credentials belong to, or why there is none: a failed
      query, with its cause kept under a context message, or no match. */
  function FromRequestResult(auth: BasicAuthGuard.BasicAuth, conn: UsersConnection): (r: Result<AuthenticatedUser, AnyError>)
    ensures r.Ok? <==> conn.queryFailure.None? && SomeUserMatches(conn.users, auth.username, auth.password)
    ensures r.Ok? ==> r.value.username == auth.username
    ensures r.Ok? ==>
      exists i :: 0 <= i < |conn.users| && Matches(conn.users[i], auth.username, auth.password)
        && conn.users[i].userId == r.value.userId
    ensures conn.queryFailure.Some? ==> r == Err(Context(QueryFailedContext, Db(conn.queryFailure.value)))
    ensures conn.queryFailure.None? && r.Err? ==> r == Err(Message(InvalidCredentials))
  {
    match conn.queryFailure
    case Some(e) => Err(Context(QueryFailedContext, Db(e)))
    case None =>
      match FirstMatch(conn.users, auth.username, auth.password)
      case None => Err(Message(InvalidCredentials))
      case Some(id) => Ok(AuthenticatedUser(id, auth.username))
  }

  /** The guard's outcome. The connection guard runs first: its failure is a
      500 and its forward is passed on. Then the Basic credentials guard runs,
      and any failure of it is a 401. Then the lookup runs, and any error of it
      is a 401. */
  function FromRequest(connection: Outcome<UsersConnection, ()>, authorization: Option<string>): (r: Outcome<AuthenticatedUser, AnyError>)
    ensures connection.Failure? ==> r == Failure(InternalServerError, Message(NoConnection))
    ensures connection.Forward? <==> r.Forward?
    ensures connection.Success? && BasicAuthGuard.FromRequestResult(authorization).Err? ==>
      r == Failure(Unauthorized, Message(NotAuthenticated))
    ensures r.Success? <==>
      connection.Success? && BasicAuthGuard.FromRequestResult(authorization).Ok?
      && connection.value.queryFailure.None?
      && SomeUserMatches(connection.value.users,
           BasicAuthGuard.FromRequestResult(authorization).value.username,
           BasicAuthGuard.FromRequestResult(authorization).value.password)
    ensures r.Success? ==>
      r.value == FromRequestResult(BasicAuthGuard.FromRequestResult(authorization).value, connection.value).value
    ensures (connection.Success? && BasicAuthGuard.FromRequestResult(authorization).Ok?
             && FromRequestResult(BasicAuthGuard.FromRequestResult(authorization).value, connection.value).Err?) ==>
      r == Failure(Unauthorized, FromRequestResult(BasicAuthGuard.FromRequestResult(authorization).value, connection.value).error)
    ensures r.Failure? && r.status != Unauthorized ==> connection.Failure?
    ensures r.Failure? ==> r.status == Unauthorized || r.status == InternalServerError
  {
    match connection
    case Failure(_, _) => Failure(InternalServerError, Message(NoConnection))
    case Forward => Forward
    case Success(conn) =>
      match BasicAuthGuard.FromRequest(authorization)
      case Failure(_, _) => Failure(Unauthorized, Message(NotAuthenticated))
      case Forward => Forward
      case Success(auth) =>
        match FromRequestResult(auth, conn)
        case Ok(user) => Success(user)
        case Err(e) => Failure(Unauthorized, e)
  }

  /** Every authenticated user the guard produces belongs to a user row whose
      username and password are the ones the request sent. */
  lemma AuthenticatedUserHasMatchingRow(conn: UsersConnection, username: string, password: string)
    requires ':' !in username
    requires FromRequest(Success(conn), Some(BasicAuthGuard.HeaderFor(username, password))).Success?
    ensures var user := FromRequest(Success(conn), Some(BasicAuthGuard.HeaderFor(username, password))).value;
      user.username == username
      && exists i :: 0 <= i < |conn.users| && conn.users[i] == User(user.userId, username, password)
  {
    BasicAuthGuard.ParsesHeaderFor(username, password);
  }

  /** Sent credentials that match no row are refused with one and the same
      outcome, whatever they are. */
  lemma NoMatchIsOneOutcome(conn: UsersConnection, username: string, password: string)
    requires conn.queryFailure.None?
    requires ':' !in username
    requires !SomeUserMatches(conn.users, username, password)
    ensures FromRequest(Success(conn), Some(BasicAuthGuard.HeaderFor(username, password)))
      == Failure(Unauthorized, Message(InvalidCredentials))
  {
    BasicAuthGuard.ParsesHeaderFor(username, password);
  }

  /** An unknown username and a known username with a wrong password cannot be
      told apart by the outcome. */
  lemma UnknownUserLooksLikeWrongPassword(conn: UsersConnection, unknown: string, known: string, guess1: string, guess2: string)
    requires conn.queryFailure.None?
    requires ':' !in unknown && ':' !in known
    requires forall i :: 0 <= i < |conn.users| ==> conn.users[i].username != unknown
    requires exists i :: 0 <= i < |conn.users| && conn.users[i].username == known
    requires forall i :: 0 <= i < |conn.users| && conn.users[i].username == known ==> conn.users[i].password != guess2
    ensures FromRequest(Success(conn), Some(BasicAuthGuard.HeaderFor(unknown, guess1)))
         == FromRequest(Success(conn), Some(BasicAuthGuard.HeaderFor(known, guess2)))
  {
    NoMatchIsOneOutcome(conn, unknown, guess1);
    NoMatchIsOneOutcome(conn, known, guess2);
  }

  /** A failing lookup query is refused with 401, like bad credentials, not
      with 500; the query's error is kept in the chain. */
  lemma QueryFailureIsUnauthorized(conn: UsersConnection, username: string, password: string)
    requires conn.queryFailure.Some?
    requires ':' !in username
    ensures FromRequest(Success(conn), Some(BasicAuthGuard.HeaderFor(username, password)))
      == Failure(Unauthorized, Context(QueryFailedContext, Db(conn.queryFailure.value)))
  {
    BasicAuthGuard.ParsesHeaderFor(username, password);
  }
}

=== FILE: base64.dfy ===
/** Base 64 encoding with the standard alphabet and padding, as defined in
    section 4 of RFC 4648. The decoder is strict: the input length is a
    multiple of four, `=` appears only as the padding of the last quantum, and
    the bits the padding discards are zero, so every accepted input is the
    encoding of exactly one byte string. */
module Base64 {
  import opened Common

  /** A value carried by one character of the encoding. */
  type Sextet = v: int | 0 <= v < 64

  const Pad: char := '='

  /** The character of the base 64 alphabet (Table 1 of RFC 4648) for `v`. */
  function SextetChar(v: Sextet): (c: char)
    ensures c != Pad
  {
    if v < 26 then ('A' as int + v) as char
    else if v < 52 then ('a' as int + (v - 26)) as char
    else if v < 62 then ('0' as int + (v - 52)) as char
    else if v == 62 then '+'
    else '/'
  }

  /** The value of an alphabet character; `None` for any other character,
      the padding character included. */
  function SextetValue(c: char): (r: Option<Sextet>)
    ensures r.Some? ==> SextetChar(r.value) == c
    ensures c == Pad ==> r.None?
  {
    if 'A' <= c <= 'Z' then Some(c as int - 'A' as int)
    else if 'a' <= c <= 'z' then Some(c as int - 'a' as int + 26)
    else if '0' <= c <= '9' then Some(c as int - '0' as int + 52)
    else if c == '+' then Some(62)
    else if c == '/' then Some(63)
    else None
  }

  lemma SextetRoundTrip(v: Sextet)
    ensures SextetValue(SextetChar(v)) == Some(v)
  {
  }

  // The arithmetic of a quantum: three octets (24 bits) split into four
  // sextets, most significant bits first, and the sextets joined back.

  function Sextet0(b0: Byte): Sextet { b0 / 4 }
  function Sextet1(b0: Byte, b1: Byte): Sextet { (b0 % 4) * 16 + b1 / 16 }
  function Sextet2(b1: Byte, b2: Byte): Sextet { (b1 % 16) * 4 + b2 / 64 }
  function Sextet3(b2: Byte): Sextet { b2 % 64 }

  function Octet0(v0: Sextet, v1: Sextet): Byte { v0 as int * 4 + v1 as int / 16 }
  function Octet1(v1: Sextet, v2: Sextet): Byte { (v1 as int % 16) * 16 + v2 as int / 4 }
  function Octet2(v2: Sextet, v3: Sextet): Byte { (v2 as int % 4) * 64 + v3 as int }

  lemma JoinSplit0(b0: Byte, b1: Byte)
    ensures Octet0(Sextet0(b0), Sextet1(b0, b1)) == b0
  {
    var x, h := b0 % 4, b1 / 16;
    assert Sextet1(b0, b1) == x * 16 + h && 0 <= h < 16;
    assert (x * 16 + h) / 16 == x;
    assert b0 == (b0 / 4) * 4 + x;
  }

  lemma JoinSplit1(b0: Byte, b1: Byte, b2: Byte)
    ensures Octet1(Sextet1(b0, b1), Sextet2(b1, b2)) == b1
  {
    var x, h, l, t := b0 % 4, b1 / 16, b1 % 16, b2 / 64;
    assert Sextet1(b0, b1) == x * 16 + h && 0 <= h < 16;
    assert (x * 16 + h) % 16 == h;
    assert Sextet2(b1, b2) == l * 4 + t && 0 <= t < 4;
    assert (l * 4 + t) / 4 == l;
    assert b1 == h * 16 + l;
  }

  lemma JoinSplit2(b1: Byte, b2: Byte)
    ensures Octet2(Sextet2(b1, b2), Sextet3(b2)) == b2
  {
    var y, t := b1 % 16, b2 / 64;
    assert Sextet2(b1, b2) == y * 4 + t && 0 <= t < 4;
    assert (y * 4 + t) % 4 == t;
    assert b2 == t * 64 + b2 % 64;
  }

  lemma SplitJoin0(v0: Sextet, v1: Sextet)
    ensures Sextet0(Octet0(v0, v1)) == v0
  {
    var h := v1 as int / 16;
    assert Octet0(v0, v1) == v0 as int * 4 + h && 0 <= h < 4;
  }

  lemma SplitJoin1(v0: Sextet, v1: Sextet, v2: Sextet)
    ensures Sextet1(Octet0(v0, v1), Octet1(v1, v2)) == v1
  {
    var h, l, t := v1 as int / 16, v1 as int % 16, v2 as int / 4;
    assert Octet0(v0, v1) == v0 as int * 4 + h && 0 <= h < 4;
    assert Octet0(v0, v1) % 4 == h;
    assert Octet1(v1, v2) == l * 16 + t && 0 <= t < 16;
    assert Octet1(v1, v2) / 16 == l;
    assert v1 as int == h * 16 + l;
  }

  lemma SplitJoin2(v1: Sextet, v2: Sextet, v3: Sextet)
    ensures Sextet2(Octet1(v1, v2), Octet2(v2, v3)) == v2
  {
    var h, l := v2 / 4, v2 % 4;
    assert Octet1(v1, v2) == (v1 as int % 16) * 16 + h && 0 <= h < 16;
    assert Octet1(v1, v2) % 16 == h;
    assert Octet2(v2, v3) == l * 64 + v3 as int && 0 <= v3 as int < 64;
    assert Octet2(v2, v3) / 64 == l;
  }

  lemma SplitJoin3(v2: Sextet, v3: Sextet)
    ensures Sextet3(Octet2(v2, v3)) == v3
  {
    var l := v2 as int % 4;
    assert Octet2(v2, v3) == l * 64 + v3 as int && 0 <= v3 as int < 64;
  }

  /** The sextets that end a padded quantum carry zero bits where the
      padding is. */
  lemma PaddingBitsZero(b0: Byte, b1: Byte)
    ensures Sextet1(b0, 0) % 16 == 0
    ensures Sextet2(b1, 0) % 4 == 0
  {
    var x, y := b0 % 4, b1 % 16;
    assert Sextet1(b0, 0) == x * 16;
    assert Sextet2(b1, 0) == y * 4;
  }

  // Encoding (section 4 of RFC 4648): each group of three octets becomes
  // four characters; a final group of one or two octets is padded with
  // zero bits and `=` characters.

  function EncodeThree(b0: Byte, b1: Byte, b2: Byte): string {
    [SextetChar(Sextet0(b0)), SextetChar(Sextet1(b0, b1)),
     SextetChar(Sextet2(b1, b2)), SextetChar(Sextet3(b2))]
  }

  function EncodeTwo(b0: Byte, b1: Byte): string {
    [SextetChar(Sextet0(b0)), SextetChar(Sextet1(b0, b1)), SextetChar(Sextet2(b1, 0)), Pad]
  }

  function EncodeOne(b0: Byte): string {
    [SextetChar(Sextet0(b0)), SextetChar(Sextet1(b0, 0)), Pad, Pad]
  }

  /** The padded base 64 encoding of `b`. */
  function Encode(b: seq<Byte>): (s: string)
    ensures |s| == 4 * ((|b| + 2) / 3)
    decreases |b|
  {
    if |b| == 0 then []
    else if |b| == 1 then EncodeOne(b[0])
    else if |b| == 2 then EncodeTwo(b[0], b[1])
    else EncodeThree(b[0], b[1], b[2]) + Encode(b[3..])
  }

  // Decoding.

  /** A quantum of four alphabet characters. */
  function DecodeFull(c0: char, c1: char, c2: char, c3: char): (r: Option<seq<Byte>>)
    ensures r.Some? ==> |r.value| == 3
  {
    var x0, x1, x2, x3 := SextetValue(c0), SextetValue(c1), SextetValue(c2), SextetValue(c3);
    if x0.Some? && x1.Some? && x2.Some? && x3.Some? then
      Some([Octet0(x0.value, x1.value), Octet1(x1.value, x2.value), Octet2(x2.value, x3.value)])
    else None
  }

  /** A final quantum `xxx=`: two octets; the two discarded bits must be zero. */
  function DecodeTwoPadded(c0: char, c1: char, c2: char): Option<seq<Byte>> {
    var x0, x1, x2 := SextetValue(c0), SextetValue(c1), SextetValue(c2);
    if x0.Some? && x1.Some? && x2.Some? && x2.value % 4 == 0 then
      Some([Octet0(x0.value, x1.value), Octet1(x1.value, x2.value)])
    else None
  }

  /** A final quantum `xx==`: one octet; the four discarded bits must be zero. */
  function DecodeOnePadded(c0: char, c1: char): Option<seq<Byte>> {
    var x0, x1 := SextetValue(c0), SextetValue(c1);
    if x0.Some? && x1.Some? && x1.value % 16 == 0 then Some([Octet0(x0.value, x1.value)])
    else None
  }

  /** The last quantum of the input, the only one that may carry padding. */
  function DecodeLast(q: string): (r: Option<seq<Byte>>)
    requires |q| == 4
    ensures r.Some? ==> 1 <= |r.value| <= 3
  {
    if q[2] == Pad && q[3] == Pad then DecodeOnePadded(q[0], q[1])
    else if q[3] == Pad then DecodeTwoPadded(q[0], q[1], q[2])
    else DecodeFull(q[0], q[1], q[2], q[3])
  }

  /** Strict decoding of padded base 64 text; `None` when `s` is not the
      encoding of any byte string. */
  function Decode(s: string): (r: Option<seq<Byte>>)
    ensures r.Some? ==> |s| == 4 * ((|r.value| + 2) / 3)
    decreases |s|
  {
    if |s| == 0 then Some([])
    else if |s| < 4 then None
    else if |s| == 4 then DecodeLast(s)
    else
      match DecodeFull(s[0], s[1], s[2], s[3])
      case None => None
      case Some(head) =>
        match Decode(s[4..])
        case None => None
        case Some(tail) =>
          QuantumLength(|tail|);
          Some(head + tail)
  }

  lemma QuantumLength(n: nat)
    ensures 4 + 4 * ((n + 2) / 3) == 4 * ((3 + n + 2) / 3)
  {
    assert (3 + n + 2) / 3 == (n + 2) / 3 + 1;
  }

  // Decoding undoes encoding, quantum by quantum.

  lemma DecodeFullOf(c0: char, c1: char, c2: char, c3: char, v0: Sextet, v1: Sextet, v2: Sextet, v3: Sextet)
    requires SextetValue(c0) == Some(v0) && SextetValue(c1) == Some(v1)
    requires SextetValue(c2) == Some(v2) && SextetValue(c3) == Some(v3)
    ensures DecodeFull(c0, c1, c2, c3) == Some([Octet0(v0, v1), Octet1(v1, v2), Octet2(v2, v3)])
  {
  }

  lemma DecodeTwoPaddedOf(c0: char, c1: char, c2: char, v0: Sextet, v1: Sextet, v2: Sextet)
    requires SextetValue(c0) == Some(v0) && SextetValue(c1) == Some(v1) && SextetValue(c2) == Some(v2)
    requires v2 % 4 == 0
    ensures DecodeTwoPadded(c0, c1, c2) == Some([Octet0(v0, v1), Octet1(v1, v2)])
  {
  }

  lemma DecodeOnePaddedOf(c0: char, c1: char, v0: Sextet, v1: Sextet)
    requires SextetValue(c0) == Some(v0) && SextetValue(c1) == Some(v1)
    requires v1 % 16 == 0
    ensures DecodeOnePadded(c0, c1) == Some([Octet0(v0, v1)])
  {
  }

  lemma DecodeEncodeThree(b0: Byte, b1: Byte, b2: Byte)
    ensures var q := EncodeThree(b0, b1, b2); DecodeFull(q[0], q[1], q[2], q[3]) == Some([b0, b1, b2])
  {
    var v0, v1, v2, v3 := Sextet0(b0), Sextet1(b0, b1), Sextet2(b1, b2), Sextet3(b2);
    SextetRoundTrip(v0);
    SextetRoundTrip(v1);
    SextetRoundTrip(v2);
    SextetRoundTrip(v3);
    DecodeFullOf(SextetChar(v0), SextetChar(v1), SextetChar(v2), SextetChar(v3), v0, v1, v2, v3);
    JoinSplit0(b0, b1);
    JoinSplit1(b0, b1, b2);
    JoinSplit2(b1, b2);
  }

  lemma DecodeEncodeTwo(b0: Byte, b1: Byte)
    ensures DecodeLast(EncodeTwo(b0, b1)) == Some([b0, b1])
  {
    var v0, v1, v2 := Sextet0(b0), Sextet1(b0, b1), Sextet2(b1, 0);
    SextetRoundTrip(v0);
    SextetRoundTrip(v1);
    SextetRoundTrip(v2);
    PaddingBitsZero(b0, b1);
    DecodeTwoPaddedOf(SextetChar(v0), SextetChar(v1), SextetChar(v2), v0, v1, v2);
    JoinSplit0(b0, b1);
    JoinSplit1(b0, b1, 0);
  }

  lemma DecodeEncodeOne(b0: Byte)
    ensures DecodeLast(EncodeOne(b0)) == Some([b0])
  {
    var v0, v1 := Sextet0(b0), Sextet1(b0, 0);
    SextetRoundTrip(v0);
    SextetRoundTrip(v1);
    PaddingBitsZero(b0, 0);
    DecodeOnePaddedOf(SextetChar(v0), SextetChar(v1), v0, v1);
    JoinSplit0(b0, 0);
  }

  /** A full quantum followed by a non-empty valid remainder decodes to the
      concatenation of the two decodings. */
  lemma DecodeCons(q: string, rest: string, head: seq<Byte>, tail: seq<Byte>)
    requires |q| == 4 && DecodeFull(q[0], q[1], q[2], q[3]) == Some(head)
    requires |rest| > 0 && Decode(rest) == Some(tail)
    ensures Decode(q + rest) == Some(head + tail)
  {
    var s := q + rest;
    assert s[0] == q[0] && s[1] == q[1] && s[2] == q[2] && s[3] == q[3];
    assert s[4..] == rest;
  }

  lemma DecodeEncodeShort(b: seq<Byte>)
    requires 0 < |b| < 3
    ensures Decode(Encode(b)) == Some(b)
  {
    if |b| == 1 {
      assert Encode(b) == EncodeOne(b[0]);
      DecodeEncodeOne(b[0]);
      assert b == [b[0]];
    } else {
      assert Encode(b) == EncodeTwo(b[0], b[1]);
      DecodeEncodeTwo(b[0], b[1]);
      assert b == [b[0], b[1]];
    }
  }

  lemma DecodeEncodeLastThree(b0: Byte, b1: Byte, b2: Byte)
    ensures Decode(EncodeThree(b0, b1, b2)) == Some([b0, b1, b2])
  {
    var q := EncodeThree(b0, b1, b2);
    DecodeEncodeThree(b0, b1, b2);
    assert q[2] != Pad && q[3] != Pad;
    assert DecodeLast(q) == DecodeFull(q[0], q[1], q[2], q[3]);
  }

  lemma DecodeEncodeStep(b: seq<Byte>)
    requires |b| > 3
    requires Decode(Encode(b[3..])) == Some(b[3..])
    ensures Decode(Encode(b)) == Some(b)
  {
    var rest := b[3..];
    var head := [b[0], b[1], b[2]];
    Recompose(b, 3);
    EncodeCons(head, rest);
    DecodeEncodeThree(b[0], b[1], b[2]);
    DecodeCons(EncodeThree(b[0], b[1], b[2]), Encode(rest), head, rest);
  }

  /** A sequence is its first `n` elements, one by one, followed by the rest. */
  lemma Recompose<T>(s: seq<T>, n: nat)
    requires 3 <= n <= 4 && n <= |s|
    ensures n == 3 ==> s == [s[0], s[1], s[2]] + s[3..]
    ensures n == 4 ==> s == [s[0], s[1], s[2], s[3]] + s[4..]
  {
  }

  /** The encoding of three octets followed by a non-empty rest is their
      quantum followed by the non-empty encoding of the rest. */
  lemma EncodeCons(head: seq<Byte>, rest: seq<Byte>)
    requires |head| == 3 && |rest| > 0
    ensures Encode(head + rest) == EncodeThree(head[0], head[1], head[2]) + Encode(rest)
    ensures |Encode(rest)| > 0
  {
    var b := head + rest;
    assert b[0] == head[0] && b[1] == head[1] && b[2] == head[2];
    assert b[3..] == rest;
    assert (|rest| + 2) / 3 >= 1;
  }

  /** Round trip: decoding the encoding of any byte string gives it back. */
  lemma {:induction false} DecodeEncode(b: seq<Byte>)
    ensures Decode(Encode(b)) == Some(b)
    decreases |b|
  {
    if |b| == 0 {
    } else if |b| < 3 {
      DecodeEncodeShort(b);
    } else if |b| == 3 {
      assert Encode(b) == EncodeThree(b[0], b[1], b[2]);
      DecodeEncodeLastThree(b[0], b[1], b[2]);
      assert b == [b[0], b[1], b[2]];
    } else {
      DecodeEncode(b[3..]);
      DecodeEncodeStep(b);
    }
  }

  // Encoding undoes decoding: the decoder accepts only canonical encodings.

  lemma EncodeDecodeFull(c0: char, c1: char, c2: char, c3: char)
    requires DecodeFull(c0, c1, c2, c3).Some?
    ensures var b := DecodeFull(c0, c1, c2, c3).value;
      |b| == 3 && EncodeThree(b[0], b[1], b[2]) == [c0, c1, c2, c3]
  {
    var v0, v1, v2, v3 := SextetValue(c0).value, SextetValue(c1).value, SextetValue(c2).value, SextetValue(c3).value;
    SplitJoin0(v0, v1);
    SplitJoin1(v0, v1, v2);
    SplitJoin2(v1, v2, v3);
    SplitJoin3(v2, v3);
  }

  lemma EncodeDecodeLast(q: string)
    requires |q| == 4 && DecodeLast(q).Some?
    ensures Encode(DecodeLast(q).value) == q
  {
    var b := DecodeLast(q).value;
    if q[2] == Pad && q[3] == Pad {
      var v0, v1 := SextetValue(q[0]).value, SextetValue(q[1]).value;
      SplitJoin0(v0, v1);
      assert b == [Octet0(v0, v1)];
      assert Sextet1(b[0], 0) == v1;
      assert EncodeOne(b[0]) == q;
    } else if q[3] == Pad {
      var v0, v1, v2 := SextetValue(q[0]).value, SextetValue(q[1]).value, SextetValue(q[2]).value;
      SplitJoin0(v0, v1);
      SplitJoin1(v0, v1, v2);
      assert b == [Octet0(v0, v1), Octet1(v1, v2)];
      assert Sextet2(b[1], 0) == v2;
      assert EncodeTwo(b[0], b[1]) == q;
    } else {
      EncodeDecodeFull(q[0], q[1], q[2], q[3]);
      assert Encode(b) == EncodeThree(b[0], b[1], b[2]) + Encode(b[3..]);
    }
  }

  /** Every string the decoder accepts is the encoding of what it decodes to. */
  lemma {:induction false} EncodeDecode(s: string)
    requires Decode(s).Some?
    ensures Encode(Decode(s).value) == s
    decreases |s|
  {
    if |s| == 0 {
    } else if |s| == 4 {
      EncodeDecodeLast(s);
    } else {
      var head := DecodeFull(s[0], s[1], s[2], s[3]).value;
      var tail := Decode(s[4..]).value;
      EncodeDecodeFull(s[0], s[1], s[2], s[3]);
      EncodeDecode(s[4..]);
      EncodeCons(head, tail);
      Recompose(s, 4);
    }
  }

  /** `Decode` is exactly the inverse of `Encode`. */
  lemma DecodeIsInverse(s: string, b: seq<Byte>)
    ensures Decode(s) == Some(b) <==> Encode(b) == s
  {
    if Decode(s) == Some(b) {
      EncodeDecode(s);
    }
    if Encode(b) == s {
      DecodeEncode(b);
    }
  }

  /** A string that is no encoding at all is rejected. */
  lemma RejectsNonEncodings(s: string)
    requires forall b :: Encode(b) != s
    ensures Decode(s).None?
  {
    if Decode(s).Some? {
      EncodeDecode(s);
    }
  }
}

=== FILE: basic_auth.dfy ===
/** The `BasicAuth` request guard (src/guards/basic_auth.rs): it reads the
    `Authorization` header of a request and extracts the credentials of the
    "Basic" scheme of RFC 7617: the header value is `Basic ` followed by the
    base 64 encoding (section 4 of RFC 4648) of the UTF-8 text (RFC 3629)
    `user-id ":" password`, split at the first colon (section 2 of RFC 7617). */
module BasicAuthGuard {
  import opened Common
  import Base64
  import Utf8

  /** Credentials taken from a request. */
  datatype BasicAuth = BasicAuth(username: string, password: string)

  /** Why a header yields no credentials; each carries the message the guard
      attaches to it. */
  datatype BasicAuthError =
    | MissingHeader
    | NotBasicScheme
    | InvalidBase64
    | InvalidUtf8
    | MissingUsername
    | MissingPassword
  {
    function Message(): (m: string)
      ensures |m| > 0
      ensures m[|m| - 1] == '.' <==> this != MissingHeader
    {
      match this
      case MissingHeader => "The 'Authorization' header was missing"
      case NotBasicScheme => "The authorization scheme was not 'Basic'."
      case InvalidBase64 => "Failed to base64-decode 'Basic' credentials."
      case InvalidUtf8 => "The decoded credential string is not valid UTF8."
      case MissingUsername => "A username must be provided in 'Basic' auth."
      case MissingPassword => "A password must be provided in 'Basic' auth."
    }
  }

  /** Each error has its own message in the log. The message never reaches
      the client, which sees only the 401 status. */
  lemma MessagesDiffer(a: BasicAuthError, b: BasicAuthError)
    ensures a.Message() == b.Message() <==> a == b
  {
  }

  const Scheme: string := "Basic "

  predicate HasScheme(value: string) {
    |Scheme| <= |value| && value[..|Scheme|] == Scheme
  }

  /** The text before the first `:` and, when there is a `:`, the text after
      it; further colons belong to the second part. */
  function SplitAtFirstColon(s: string): (r: (string, Option<string>))
    ensures ':' !in r.0
    ensures r.1.None? <==> ':' !in s
    ensures r.1.None? ==> r.0 == s
    ensures r.1.Some? ==> s == r.0 + [':'] + r.1.value
  {
    if s == [] then ([], None)
    else if s[0] == ':' then ([], Some(s[1..]))
    else
      var (before, after) := SplitAtFirstColon(s[1..]);
      ([s[0]] + before, after)
  }

  /** The credentials of the header value `authorization` (absent when the
      request has no `Authorization` header), or why there are none. */
  function FromRequestResult(authorization: Option<string>): (r: Result<BasicAuth, BasicAuthError>)
    ensures authorization.None? ==> r == Err(MissingHeader)
    ensures authorization.Some? && !HasScheme(authorization.value) ==> r == Err(NotBasicScheme)
    ensures r != Err(MissingUsername)
    ensures r.Ok? ==> ':' !in r.value.username
  {
    match authorization
    case None => Err(MissingHeader)
    case Some(value) =>
      if !HasScheme(value) then Err(NotBasicScheme)
      else
        match Base64.Decode(value[|Scheme|..])
        case None => Err(InvalidBase64)
        case Some(bytes) =>
          match Utf8.Decode(bytes)
          case None => Err(InvalidUtf8)
          case Some(text) =>
            var (username, password) := SplitAtFirstColon(text);
            match password
            case None => Err(MissingPassword)
            case Some(p) => Ok(BasicAuth(username, p))
  }

  /** The guard's outcome: the credentials, or a failure with status 401 for
      every reason the header yields none. It never forwards. */
  function FromRequest(authorization: Option<string>): (r: Outcome<BasicAuth, BasicAuthError>)
    ensures !r.Forward?
    ensures r.Success? <==> FromRequestResult(authorization).Ok?
    ensures r.Success? ==> r.value == FromRequestResult(authorization).value
    ensures r.Failure? ==> r.status == Unauthorized && r.error == FromRequestResult(authorization).error
  {
    match FromRequestResult(authorization)
    case Ok(auth) => Success(auth)
    case Err(e) => Failure(Unauthorized, e)
  }

  /** The header value a client sends for the given credentials. */
  function HeaderFor(username: string, password: string): string {
    Scheme + Base64.Encode(Utf8.Encode(username + [':'] + password))
  }

  lemma {:induction false} SplitAfterColonFree(u: string, p: string)
    requires ':' !in u
    ensures SplitAtFirstColon(u + [':'] + p) == (u, Some(p))
  {
    if u == [] {
      assert u + [':'] + p == [':'] + p;
    } else {
      assert (u + [':'] + p)[1..] == u[1..] + [':'] + p;
      SplitAfterColonFree(u[1..], p);
      assert [u[0]] + u[1..] == u;
    }
  }

  lemma StripScheme(rest: string)
    ensures HasScheme(Scheme + rest) && (Scheme + rest)[|Scheme|..] == rest
  {
  }

  /** Round trip: credentials whose username has no colon, sent as section 2
      of RFC 7617 prescribes, are parsed back unchanged; the password may
      contain colons and either part may be empty. */
  lemma ParsesHeaderFor(username: string, password: string)
    requires ':' !in username
    ensures FromRequestResult(Some(HeaderFor(username, password))) == Ok(BasicAuth(username, password))
  {
    var text := username + [':'] + password;
    var bytes := Utf8.Encode(text);
    StripScheme(Base64.Encode(bytes));
    Base64.DecodeEncode(bytes);
    Utf8.DecodeEncode(text);
    SplitAfterColonFree(username, password);
  }

  /** The guard accepts exactly the canonical headers: a header yields the
      credentials `(u, p)` if and only if it is the header for `(u, p)` and
      `u` has no colon. */
  lemma AcceptsExactlyHeaderFor(value: string, username: string, password: string)
    ensures FromRequestResult(Some(value)) == Ok(BasicAuth(username, password))
        <==> (':' !in username && value == HeaderFor(username, password))
  {
    if FromRequestResult(Some(value)) == Ok(BasicAuth(username, password)) {
      var rest := value[|Scheme|..];
      var bytes := Base64.Decode(rest).value;
      var text := Utf8.Decode(bytes).value;
      Base64.EncodeDecode(rest);
      Utf8.EncodeDecode(bytes);
      assert text == username + [':'] + password;
      assert value == Scheme + rest;
    }
    if ':' !in username && value == HeaderFor(username, password) {
      ParsesHeaderFor(username, password);
    }
  }

  /** A remainder that is not the base 64 encoding of any octets is rejected
      as invalid base 64. */
  lemma RejectsNonBase64(value: string)
    requires HasScheme(value)
    requires forall b :: Base64.Encode(b) != value[|Scheme|..]
    ensures FromRequestResult(Some(value)) == Err(InvalidBase64)
  {
    Base64.RejectsNonEncodings(value[|Scheme|..]);
  }

  /** Octets that are not the UTF-8 encoding of any text are rejected as
      invalid UTF-8, even when correctly base 64 encoded. */
  lemma RejectsNonUtf8(bytes: seq<Byte>)
    requires forall s :: Utf8.Encode(s) != bytes
    ensures FromRequestResult(Some(Scheme + Base64.Encode(bytes))) == Err(InvalidUtf8)
  {
    StripScheme(Base64.Encode(bytes));
    Base64.DecodeEncode(bytes);
    if Utf8.Decode(bytes).Some? {
      Utf8.EncodeDecode(bytes);
    }
  }

  /** Well-encoded text without a colon carries no password and is rejected. */
  lemma RejectsMissingColon(text: string)
    requires ':' !in text
    ensures FromRequestResult(Some(Scheme + Base64.Encode(Utf8.Encode(text)))) == Err(MissingPassword)
  {
    StripScheme(Base64.Encode(Utf8.Encode(text)));
    Base64.DecodeEncode(Utf8.Encode(text));
    Utf8.DecodeEncode(text);
  }
}

=== FILE: common.dfy ===
/** Shared vocabulary of the newsletter service model: optional values and
    results, the error chains that the service builds with context messages,
    HTTP status codes and the three-way outcome of a request guard. */
module Common {

  /** An octet, as the byte strings of the service carry them. */
  type Byte = b: int | 0 <= b < 256

  /** A UUID; only its identity matters here. */
  type Uuid = nat

  /** A point in time, as the database stores it. */
  type Timestamp = int

  datatype Option<+T> = None | Some(value: T)

  datatype Result<+T, +E> = Ok(value: T) | Err(error: E)

  /** An error as a chain of messages: a root message, possibly wrapped in
      context messages (outermost context first when read from the top). */
  datatype AnyError =
    | Message(text: string)
    | Context(context: string, source: AnyError)
    | Db(cause: DbError)

  /** An error reported by the database. `RollbackTransaction` is the marker
      a transaction body returns to ask for a rollback. */
  datatype DbError = UniqueViolation(constraint: string) | QueryFailed(reason: string) | RollbackTransaction

  /** An HTTP status code. */
  datatype Status = Status(code: int)

  const StatusOk := Status(200)
  const BadRequest := Status(400)
  const Unauthorized := Status(401)
  const UnprocessableEntity := Status(422)
  const InternalServerError := Status(500)

  /** The outcome of a request guard: the guarded value, a failure carrying the
      status to respond with and an error, or a forward to the next route. */
  datatype Outcome<+S, +E> = Success(value: S) | Failure(status: Status, error: E) | Forward

  /** An HTTP header. */
  datatype Header = Header(name: string, value: string)

  /** A response produced by a catcher: status and extra headers. */
  datatype Response = Response(status: Status, headers: seq<Header>)

  /** The response the `unauthorized_request_credentials` catcher builds: a
      401 asking the client to retry with Basic credentials for the realm
      "publish" (section 4.1 of RFC 7235). The catcher is not registered, so
      the application's 401s do not carry it. */
  function UnauthorizedResponse(): (r: Response)
    ensures r.status == Unauthorized
    ensures Header("WWW-Authenticate", "Basic realm=\"publish\"") in r.headers
  {
    Response(Unauthorized, [Header("WWW-Authenticate", "Basic realm=\"publish\"")])
  }
}

=== FILE: configuration.dfy ===
/** The string logic of the service's settings (src/configuration.rs): the
    runtime environment's name, the database connection strings, and the
    sender address of the email client. */
module Configuration {
  import opened Common
  import Domain

  datatype Environment = Local | Production

  /** The name of an environment, as used for its settings file. */
  function AsStr(e: Environment): (s: string)
    ensures s == "local" || s == "production"
    ensures s == "local" <==> e == Local
  {
    match e
    case Local => "local"
    case Production => "production"
  }

  /** The lower-case form of a character; letters outside A to Z are kept. */
  function Lower(c: char): (l: char)
    ensures 'A' <= c <= 'Z' ==> l as int == c as int + 32
    ensures !('A' <= c <= 'Z') ==> l == c
  {
    if 'A' <= c <= 'Z' then (c as int + 32) as char else c
  }

  function ToLowercase(s: string): (r: string)
    ensures |r| == |s|
    ensures forall i :: 0 <= i < |s| ==> r[i] == Lower(s[i])
  {
    seq(|s|, i requires 0 <= i < |s| => Lower(s[i]))
  }

  const UnsupportedSuffix := " is not a supported environment. Use either 'local' or 'production'."

  /** Reads an environment name, ignoring case; any other name is refused
      with a message that starts with the lower-cased name. */
  function TryFrom(s: string): (r: Result<Environment, string>)
    ensures r.Ok? ==> ToLowercase(s) == AsStr(r.value)
    ensures r.Err? ==> |s| < |r.error| && r.error[..|s|] == ToLowercase(s)
  {
    var lower := ToLowercase(s);
    if lower == "local" then Ok(Local)
    else if lower == "production" then Ok(Production)
    else Err(lower + UnsupportedSuffix)
  }

  /** A reference definition of "equal ignoring case" against a lower-case
      word: each character is the word's letter or its capital. */
  predicate SameIgnoringCase(s: string, word: string) {
    |s| == |word|
    && forall i :: 0 <= i < |s| ==>
         s[i] == word[i] || ('a' <= word[i] <= 'z' && s[i] as int == word[i] as int - 32)
  }

  lemma LowerMatches(c: char, w: char)
    requires 'a' <= w <= 'z'
    ensures Lower(c) == w <==> c == w || c as int == w as int - 32
  {
  }

  lemma ToLowercaseIs(s: string, word: string)
    requires forall i :: 0 <= i < |word| ==> 'a' <= word[i] <= 'z'
    ensures ToLowercase(s) == word <==> SameIgnoringCase(s, word)
  {
    if SameIgnoringCase(s, word) {
      forall i | 0 <= i < |s|
        ensures ToLowercase(s)[i] == word[i]
      {
        LowerMatches(s[i], word[i]);
      }
    }
    if ToLowercase(s) == word {
      forall i | 0 <= i < |s|
        ensures s[i] == word[i] || s[i] as int == word[i] as int - 32
      {
        LowerMatches(s[i], word[i]);
      }
    }
  }

  /** An environment is read exactly from its name written in any mix of
      upper and lower case. */
  lemma TryFromIgnoresCase(s: string, e: Environment)
    ensures TryFrom(s) == Ok(e) <==> SameIgnoringCase(s, AsStr(e))
  {
    ToLowercaseIs(s, "local");
    ToLowercaseIs(s, "production");
  }

  /** Round trip: the name of an environment reads back as that environment. */
  lemma AsStrRoundTrip(e: Environment)
    ensures TryFrom(AsStr(e)) == Ok(e)
  {
    TryFromIgnoresCase(AsStr(e), e);
  }

  /** The PostgreSQL `sslmode` for whether SSL is required. */
  function SslMode(requireSsl: bool): (m: string)
    ensures m == "require" || m == "prefer"
    ensures requireSsl <==> m == "require"
  {
    if requireSsl then "require" else "prefer"
  }

  /** A TCP port number: an unsigned 16-bit integer. */
  type Port = p: int | 0 <= p < 0x1_0000

  datatype DatabaseSettings = DatabaseSettings(
    username: string, password: string, port: Port, host: string, databaseName: string, requireSsl: bool)

  datatype EmailClientSettings = EmailClientSettings(senderEmail: string, timeoutMilliseconds: nat)

  function Digit(d: nat): (c: char)
    requires d < 10
    ensures '0' <= c <= '9'
  {
    ('0' as int + d) as char
  }

  /** The decimal form of a number, as Rust's `Display` writes it: digits
      only, without leading zeros. */
  function Decimal(n: nat): (s: string)
    ensures 1 <= |s|
    ensures forall i :: 0 <= i < |s| ==> '0' <= s[i] <= '9'
    ensures |s| > 1 ==> s[0] != '0'
  {
    if n < 10 then [Digit(n)] else Decimal(n / 10) + [Digit(n % 10)]
  }

  /** The number a string of digits denotes. */
  function DecimalValue(s: string): nat
    requires forall i :: 0 <= i < |s| ==> '0' <= s[i] <= '9'
  {
    if s == [] then 0 else DecimalValue(s[..|s| - 1]) * 10 + (s[|s| - 1] as int - '0' as int)
  }

  /** Round trip: the decimal form of a number denotes that number. */
  lemma {:induction false} DecimalRoundTrip(n: nat)
    ensures DecimalValue(Decimal(n)) == n
  {
    if n >= 10 {
      DecimalRoundTrip(n / 10);
      var s := Decimal(n);
      assert s[..|s| - 1] == Decimal(n / 10);
    }
  }

  const Scheme := "postgres://"
  const SslModeKey := "?sslmode="

  /** The SSL-mode query that ends both URLs. */
  function Query(d: DatabaseSettings): string {
    SslModeKey + SslMode(d.requireSsl)
  }

  /** The credentials and host of a URL, up to the `:` before the port. */
  function Credentials(d: DatabaseSettings): string {
    d.username + ":" + d.password + "@" + d.host + ":"
  }

  /** The URL of the service's database: the scheme, the credentials and
      host, the decimal port, `/` and the database name, then the SSL-mode
      query, with nothing else in between. */
  function ConnectionString(d: DatabaseSettings): (url: string)
    ensures |url| == |Scheme| + |Credentials(d)| + |Decimal(d.port)| + 1 + |d.databaseName| + |Query(d)|
    ensures url[..|Scheme|] == Scheme
    ensures url[|Scheme|..|Scheme| + |Credentials(d)|] == Credentials(d)
    ensures url[|url| - |Query(d)|..] == Query(d)
    ensures var k := |url| - |Query(d)| - |d.databaseName| - 1;
      url[k..|url| - |Query(d)|] == "/" + d.databaseName
      && |Decimal(d.port)| <= k && url[k - |Decimal(d.port)|..k] == Decimal(d.port)
  {
    var url := Scheme + Credentials(d) + Decimal(d.port) + ("/" + d.databaseName) + Query(d);
    assert url[..|Scheme|] == Scheme by { assert url == Scheme + (url[|Scheme|..]); }
    assert url[|Scheme|..|Scheme| + |Credentials(d)|] == Credentials(d);
    url
  }

  /** The URL of the database server, without a database: the scheme, the
      credentials and host, the decimal port, then the SSL-mode query. */
  function ConnectionStringWithoutDatabase(d: DatabaseSettings): (url: string)
    ensures |url| == |Scheme| + |Credentials(d)| + |Decimal(d.port)| + |Query(d)|
    ensures url[..|Scheme|] == Scheme
    ensures url[|Scheme|..|Scheme| + |Credentials(d)|] == Credentials(d)
    ensures url[|url| - |Query(d)|..] == Query(d)
    ensures var k := |url| - |Query(d)|;
      url[k - |Decimal(d.port)|..k] == Decimal(d.port) && url[k - |Decimal(d.port)| - 1] == ':'
  {
    var url := Scheme + Credentials(d) + Decimal(d.port) + Query(d);
    assert url[..|Scheme|] == Scheme by { assert url == Scheme + (url[|Scheme|..]); }
    assert url[|Scheme|..|Scheme| + |Credentials(d)|] == Credentials(d);
    url
  }

  /** Both URLs start with the scheme and end with the SSL mode; the server
      URL is the database URL with the `/` and database name segment taken
      out just before the query. */
  lemma ConnectionStringsAgree(d: DatabaseSettings)
    ensures var full := ConnectionString(d);
      var server := ConnectionStringWithoutDatabase(d);
      var k := |server| - |Query(d)|;
      |full| == |server| + 1 + |d.databaseName|
      && full[..|Scheme|] == Scheme && server[..|Scheme|] == Scheme
      && full[|full| - |Query(d)|..] == Query(d) && server[k..] == Query(d)
      && full[..k] == server[..k]
      && full[k..k + 1 + |d.databaseName|] == "/" + d.databaseName
  {
    var authority := Scheme + Credentials(d) + Decimal(d.port);
    assert ConnectionString(d) == authority + ("/" + d.databaseName) + Query(d);
    assert ConnectionStringWithoutDatabase(d) == authority + Query(d);
  }

  /** The sender address of the email client: the configured address, if
      the email parse function accepts it. */
  function Sender(rules: Domain.Rules, settings: EmailClientSettings): (r: Result<Domain.SubscriberEmail, string>)
    ensures r.Ok? <==> rules.email.accepts(settings.senderEmail)
    ensures r.Ok? ==> r.value.address == settings.senderEmail
    ensures r.Err? ==> r.error == rules.email.reason(settings.senderEmail)
  {
    Domain.ParseEmail(rules.email, settings.senderEmail)
  }
}

=== FILE: domain.dfy ===
/** The validated subscriber values. Their parsing rules are not part of this
    model: a `Validator` stands for one parse function, telling which inputs
    it accepts and the message it gives for the others. An accepted input is
    kept as it is. */
module Domain {
  import opened Common

  datatype SubscriberEmail = SubscriberEmail(address: string)

  datatype SubscriberName = SubscriberName(text: string)

  /** A subscriber whose email and name were both accepted. */
  datatype NewSubscriber = NewSubscriber(email: SubscriberEmail, name: SubscriberName)

  /** One parse function: the inputs it accepts and the message it gives for
      an input it refuses. */
  datatype Validator = Validator(accepts: string -> bool, reason: string -> string)

  /** The parse functions for email addresses and for names. */
  datatype Rules = Rules(email: Validator, name: Validator)

  function ParseEmail(v: Validator, s: string): (r: Result<SubscriberEmail, string>)
    ensures r.Ok? <==> v.accepts(s)
    ensures r.Ok? ==> r.value.address == s
    ensures r.Err? ==> r.error == v.reason(s)
  {
    if v.accepts(s) then Ok(SubscriberEmail(s)) else Err(v.reason(s))
  }

  function ParseName(v: Validator, s: string): (r: Result<SubscriberName, string>)
    ensures r.Ok? <==> v.accepts(s)
    ensures r.Ok? ==> r.value.text == s
    ensures r.Err? ==> r.error == v.reason(s)
  {
    if v.accepts(s) then Ok(SubscriberName(s)) else Err(v.reason(s))
  }
}

=== FILE: email.dfy ===
/** The email client as the service sees it: every successful send appends
    one message to an outbox, in the order of the sends; a failed send
    appends nothing and reports its error. Whether a send fails is decided
    outside the service and is given to each call. */
module Email {
  import opened Common
  import Domain

  /** One message handed to the email client. */
  datatype SentEmail = SentEmail(recipient: string, subject: string, htmlContent: string, textContent: string)

  class Outbox {
    /** The messages sent so far, oldest first. */
    var sent: seq<SentEmail>

    constructor()
      ensures sent == []
    {
      sent := [];
    }

    /** Sends one message unless `failure` says the client fails this time. */
    method SendEmail(recipient: Domain.SubscriberEmail, subject: string, htmlContent: string, textContent: string,
                     failure: Option<AnyError>)
      returns (r: Result<(), AnyError>)
      modifies this
      ensures failure.None? ==> r == Ok(()) && sent == old(sent) + [SentEmail(recipient.address, subject, htmlContent, textContent)]
      ensures failure.Some? ==> r == Err(failure.value) && sent == old(sent)
    {
      if failure.Some? {
        r := Err(failure.value);
      } else {
        sent := sent + [SentEmail(recipient.address, subject, htmlContent, textContent)];
        r := Ok(());
      }
    }
  }
}

=== FILE: models.dfy ===
/** Rows of the database tables (src/schema.rs) and the key constraints the
    store enforces on inserts. */
module Models {
  import opened Common

  /** A row of the subscriptions table. */
  datatype Subscription = Subscription(id: Uuid, email: string, name: string, subscribedAt: Timestamp, status: string)

  /** A row of the subscription_tokens table. */
  datatype SubscriptionToken = SubscriptionToken(subscriptionToken: string, subscriberId: Uuid)

  /** The contents of the store, table by table, each in row order. */
  datatype Tables = Tables(subscriptions: seq<Subscription>, subscriptionTokens: seq<SubscriptionToken>)

  const Confirmed := "confirmed"

  /** The subscriptions table's keys: `id` is the primary key, and `email` is
      unique, as the duplicate-email signup test expects (a second signup with
      the same address is a 500, tests/api/subscriptions.rs:29-47). */
  predicate UniqueKeys(rows: seq<Subscription>) {
    forall i, j :: 0 <= i < j < |rows| ==> rows[i].id != rows[j].id && rows[i].email != rows[j].email
  }

  /** Whether adding `row` to `rows` would break a key. */
  predicate Conflicts(rows: seq<Subscription>, row: Subscription) {
    exists i :: 0 <= i < |rows| && (rows[i].id == row.id || rows[i].email == row.email)
  }

  /** Appending a row that conflicts with no existing row keeps the keys
      unique. */
  lemma AppendKeepsKeys(rows: seq<Subscription>, row: Subscription)
    requires UniqueKeys(rows) && !Conflicts(rows, row)
    ensures UniqueKeys(rows + [row])
  {
    var rows' := rows + [row];
    forall i, j | 0 <= i < j < |rows'|
      ensures rows'[i].id != rows'[j].id && rows'[i].email != rows'[j].email
    {
      if j == |rows| {
        assert rows'[i] == rows[i];
      }
    }
  }
}

=== FILE: newsletters.dfy ===
/** Publishing a newsletter issue (src/routes/newsletters.rs): fetch the
    confirmed subscribers, then send the issue to each one whose stored
    address is valid, skipping the others and stopping at the first send
    that fails. */
module Newsletters {
  import opened Common
  import opened Models
  import opened Domain
  import Email
  import Startup

  datatype Content = Content(html: string, text: string)

  /** The request body: the issue's title and its two renderings. */
  datatype BodyData = BodyData(title: string, content: Content)

  datatype ConfirmedSubscriber = ConfirmedSubscriber(email: SubscriberEmail)

  /** The one error of the route; every cause is unexpected. */
  datatype PublishError = UnexpectedError(error: AnyError)

  const FetchContext := "Failed to fetch confirmed subscribers from database."
  const SendContext := "Failed to send newsletter issue to "

  /** The status the route answers for an error: always 500. */
  function RespondTo(e: PublishError): (s: Status)
    ensures s == InternalServerError
  {
    match e
    case UnexpectedError(_) => InternalServerError
  }

  /** The email column of the rows whose status is "confirmed", in row order. */
  function ConfirmedEmails(rows: seq<Subscription>): (r: seq<string>)
    ensures |r| <= |rows|
    ensures forall e :: e in r <==> exists i :: 0 <= i < |rows| && rows[i].status == Confirmed && rows[i].email == e
  {
    if rows == [] then []
    else
      var init, last := rows[..|rows| - 1], rows[|rows| - 1];
      assert forall i :: 0 <= i < |init| ==> init[i] == rows[i];
      ConfirmedEmails(init) + (if last.status == Confirmed then [last.email] else [])
  }

  /** One fetched entry: the subscriber when the stored address parses, the
      parser's message otherwise. */
  function ParseEntry(rules: Rules, email: string): (r: Result<ConfirmedSubscriber, AnyError>)
    ensures r.Ok? <==> rules.email.accepts(email)
    ensures r.Ok? ==> r.value.email.address == email
    ensures r.Err? ==> r.error == Message(rules.email.reason(email))
  {
    match ParseEmail(rules.email, email)
    case Ok(address) => Ok(ConfirmedSubscriber(address))
    case Err(reason) => Err(Message(reason))
  }

  /** The subscribers query: the database's error, or one entry per
      confirmed row, in row order. */
  function GetConfirmedSubscribers(rules: Rules, rows: seq<Subscription>, failure: Option<DbError>)
    : (r: Result<seq<Result<ConfirmedSubscriber, AnyError>>, DbError>)
    ensures failure.Some? ==> r == Err(failure.value)
    ensures failure.None? ==> r.Ok? && |r.value| == |ConfirmedEmails(rows)|
    ensures failure.None? ==> forall i :: 0 <= i < |r.value| ==>
      (r.value[i].Ok? <==> rules.email.accepts(ConfirmedEmails(rows)[i]))
      && (r.value[i].Ok? ==> r.value[i].value.email.address == ConfirmedEmails(rows)[i])
  {
    if failure.Some? then Err(failure.value)
    else
      var emails := ConfirmedEmails(rows);
      Ok(seq(|emails|, i requires 0 <= i < |emails| => ParseEntry(rules, emails[i])))
  }

  /** The addresses of the valid entries, in order: whom the issue is for. */
  function Recipients(entries: seq<Result<ConfirmedSubscriber, AnyError>>): (r: seq<SubscriberEmail>)
    ensures |r| <= |entries|
  {
    if entries == [] then []
    else
      var last := entries[|entries| - 1];
      Recipients(entries[..|entries| - 1]) + (if last.Ok? then [last.value.email] else [])
  }

  /** The message of one issue for one recipient. */
  function Issue(recipient: SubscriberEmail, body: BodyData): Email.SentEmail {
    Email.SentEmail(recipient.address, body.title, body.content.html, body.content.text)
  }

  /** The messages of one issue for several recipients, in order. */
  function Issues(recipients: seq<SubscriberEmail>, body: BodyData): (r: seq<Email.SentEmail>)
    ensures |r| == |recipients|
    ensures forall i :: 0 <= i < |r| ==> r[i] == Issue(recipients[i], body)
  {
    if recipients == [] then []
    else Issues(recipients[..|recipients| - 1], body) + [Issue(recipients[|recipients| - 1], body)]
  }

  /** The index of the first of `n` sends that fails, or `n` when none does. */
  function FirstFailure(n: nat, failureAt: nat -> Option<AnyError>): (k: nat)
    ensures k <= n
    ensures forall j :: 0 <= j < k ==> failureAt(j).None?
    ensures k < n ==> failureAt(k).Some?
  {
    if n == 0 then 0
    else
      var k := FirstFailure(n - 1, failureAt);
      if k < n - 1 then k
      else if failureAt(n - 1).Some? then n - 1
      else n
  }

  /** A reference definition of whom the issue reaches: the rows that are
      confirmed and whose address is valid, in row order. */
  function ValidConfirmedEmails(rules: Rules, rows: seq<Subscription>): (r: seq<string>)
    ensures |r| <= |rows|
  {
    if rows == [] then []
    else
      var last := rows[|rows| - 1];
      ValidConfirmedEmails(rules, rows[..|rows| - 1])
        + (if last.status == Confirmed && rules.email.accepts(last.email) then [last.email] else [])
  }

  function Addresses(recipients: seq<SubscriberEmail>): (r: seq<string>)
    ensures |r| == |recipients|
    ensures forall i :: 0 <= i < |r| ==> r[i] == recipients[i].address
  {
    seq(|recipients|, i requires 0 <= i < |recipients| => recipients[i].address)
  }

  /** Only confirmed rows with a valid address are reached, and every such
      row is. */
  lemma {:induction false} ValidConfirmedEmailsMembers(rules: Rules, rows: seq<Subscription>, email: string)
    ensures email in ValidConfirmedEmails(rules, rows) <==>
      rules.email.accepts(email)
      && exists i :: 0 <= i < |rows| && rows[i].status == Confirmed && rows[i].email == email
  {
    if rows != [] {
      var init := rows[..|rows| - 1];
      ValidConfirmedEmailsMembers(rules, init, email);
      assert forall i :: 0 <= i < |init| ==> init[i] == rows[i];
    }
  }

  lemma RecipientsAppend(entries: seq<Result<ConfirmedSubscriber, AnyError>>, entry: Result<ConfirmedSubscriber, AnyError>)
    ensures Recipients(entries + [entry]) == Recipients(entries) + (if entry.Ok? then [entry.value.email] else [])
  {
    assert (entries + [entry])[..|entries|] == entries;
  }

  /** The recipients of the fetched entries are exactly the reference set of
      confirmed rows with a valid address, in row order. */
  lemma {:induction false} RecipientsAreValidConfirmed(rules: Rules, rows: seq<Subscription>)
    ensures Addresses(Recipients(GetConfirmedSubscribers(rules, rows, None).value)) == ValidConfirmedEmails(rules, rows)
  {
    if rows != [] {
      var init := rows[..|rows| - 1];
      var last := rows[|rows| - 1];
      RecipientsAreValidConfirmed(rules, init);
      var before := GetConfirmedSubscribers(rules, init, None).value;
      EntriesStep(rules, rows);
      assert ValidConfirmedEmails(rules, rows) == ValidConfirmedEmails(rules, init)
        + (if last.status == Confirmed && rules.email.accepts(last.email) then [last.email] else []);
      if last.status == Confirmed {
        var entry := ParseEntry(rules, last.email);
        assert GetConfirmedSubscribers(rules, rows, None).value == before + [entry];
        RecipientsAppend(before, entry);
        assert entry.Ok? <==> rules.email.accepts(last.email);
        if entry.Ok? {
          assert entry.value.email.address == last.email;
          AddressesAppend(Recipients(before), entry.value.email);
        }
      } else {
        assert GetConfirmedSubscribers(rules, rows, None).value == before;
      }
    }
  }

  lemma AddressesAppend(recipients: seq<SubscriberEmail>, recipient: SubscriberEmail)
    ensures Addresses(recipients + [recipient]) == Addresses(recipients) + [recipient.address]
  {
  }

  /** The entries fetched from the rows are those fetched from all but the
      last row, then the last row's entry when it is confirmed. */
  lemma EntriesStep(rules: Rules, rows: seq<Subscription>)
    requires rows != []
    ensures var last := rows[|rows| - 1];
      GetConfirmedSubscribers(rules, rows, None).value
      == GetConfirmedSubscribers(rules, rows[..|rows| - 1], None).value
         + (if last.status == Confirmed then [ParseEntry(rules, last.email)] else [])
  {
    var init := rows[..|rows| - 1];
    var last := rows[|rows| - 1];
    var before := ConfirmedEmails(init);
    var extra := if last.status == Confirmed then [last.email] else [];
    assert ConfirmedEmails(rows) == before + extra;
    var entries := GetConfirmedSubscribers(rules, rows, None).value;
    var prefix := GetConfirmedSubscribers(rules, init, None).value;
    assert forall i :: 0 <= i < |prefix| ==> entries[i] == prefix[i];
  }

  /** When every send succeeds, the number of messages is the number of
      confirmed rows with a valid address. */
  lemma SendCount(rules: Rules, rows: seq<Subscription>)
    ensures |Recipients(GetConfirmedSubscribers(rules, rows, None).value)| == |ValidConfirmedEmails(rules, rows)|
  {
    RecipientsAreValidConfirmed(rules, rows);
  }

  /** The route's handler. A failed fetch is an error and sends nothing.
      Otherwise the issue goes to the recipients in order until the first
      failed send, which ends the route with an error naming that recipient;
      the recipients after it get nothing. */
  method PublishNewsletter(conn: Startup.NewsletterDbConn, outbox: Email.Outbox, rules: Rules, body: BodyData,
                           fetchFailure: Option<DbError>, sendFailureAt: nat -> Option<AnyError>)
    returns (r: Result<(), PublishError>)
    modifies outbox
    ensures fetchFailure.Some? ==>
      r == Err(UnexpectedError(Context(FetchContext, Db(fetchFailure.value)))) && outbox.sent == old(outbox.sent)
    ensures fetchFailure.None? ==>
      var recipients := Recipients(GetConfirmedSubscribers(rules, conn.subscriptions, None).value);
      var k := FirstFailure(|recipients|, sendFailureAt);
      outbox.sent == old(outbox.sent) + Issues(recipients[..k], body)
      && (k == |recipients| ==> r == Ok(()))
      && (k < |recipients| ==>
            r == Err(UnexpectedError(Context(SendContext + recipients[k].address, sendFailureAt(k).value))))
  {
    var fetched := GetConfirmedSubscribers(rules, conn.subscriptions, fetchFailure);
    if fetched.Err? {
      return Err(UnexpectedError(Context(FetchContext, Db(fetched.error))));
    }
    r := SendIssue(outbox, fetched.value, body, sendFailureAt);
  }

  /** The send loop of the handler over the fetched entries: entries with an
      invalid address are skipped; each valid one gets the issue, and the
      first send that fails ends the loop with an error naming its
      recipient. */
  method SendIssue(outbox: Email.Outbox, subscribers: seq<Result<ConfirmedSubscriber, AnyError>>, body: BodyData,
                   sendFailureAt: nat -> Option<AnyError>)
    returns (r: Result<(), PublishError>)
    modifies outbox
    ensures var recipients := Recipients(subscribers);
      var k := FirstFailure(|recipients|, sendFailureAt);
      outbox.sent == old(outbox.sent) + Issues(recipients[..k], body)
      && (k == |recipients| ==> r == Ok(()))
      && (k < |recipients| ==>
            r == Err(UnexpectedError(Context(SendContext + recipients[k].address, sendFailureAt(k).value))))
  {
    var i := 0;
    var sends := 0;
    while i < |subscribers|
      invariant 0 <= i <= |subscribers|
      invariant Progress(subscribers, i, sends, sendFailureAt, old(outbox.sent), outbox.sent, body)
    {
      match subscribers[i] {
        case Ok(subscriber) =>
          var sent := outbox.SendEmail(subscriber.email, body.title, body.content.html, body.content.text,
                                       sendFailureAt(sends));
          if sent.Err? {
            ProgressStops(subscribers, i, sends, sendFailureAt, old(outbox.sent), outbox.sent, body);
            return Err(UnexpectedError(Context(SendContext + subscriber.email.address, sent.error)));
          }
          ProgressTakes(subscribers, i, sends, sendFailureAt, old(outbox.sent), old(outbox.sent) + Issues(Recipients(subscribers[..i]), body), body);
          sends := sends + 1;
        case Err(_) =>
          ProgressSkips(subscribers, i, sends, sendFailureAt, old(outbox.sent), outbox.sent, body);
      }
      i := i + 1;
    }
    ProgressEnds(subscribers, sends, sendFailureAt, old(outbox.sent), outbox.sent, body);
    r := Ok(());
  }

  /** The state of the send loop after the first `i` entries: every send so
      far succeeded, one per valid entry, and the outbox gained their
      issues in order. */
  ghost predicate Progress(entries: seq<Result<ConfirmedSubscriber, AnyError>>, i: nat, sends: nat,
                           failureAt: nat -> Option<AnyError>, prior: seq<Email.SentEmail>,
                           sent: seq<Email.SentEmail>, body: BodyData)
  {
    i <= |entries|
    && sends == |Recipients(entries[..i])|
    && (forall j :: 0 <= j < sends ==> failureAt(j).None?)
    && sent == prior + Issues(Recipients(entries[..i]), body)
  }

  /** A valid entry whose send succeeds adds its issue. */
  lemma ProgressTakes(entries: seq<Result<ConfirmedSubscriber, AnyError>>, i: nat, sends: nat,
                      failureAt: nat -> Option<AnyError>, prior: seq<Email.SentEmail>,
                      sent: seq<Email.SentEmail>, body: BodyData)
    requires i < |entries| && entries[i].Ok? && failureAt(sends).None?
    requires Progress(entries, i, sends, failureAt, prior, sent, body)
    ensures Progress(entries, i + 1, sends + 1, failureAt, prior, sent + [Issue(entries[i].value.email, body)], body)
  {
    var reached := Recipients(entries[..i]);
    RecipientsStep(entries, i);
    OutboxGrows(prior, reached, entries[i].value.email, body);
  }

  /** An invalid entry is skipped: nothing is sent. */
  lemma ProgressSkips(entries: seq<Result<ConfirmedSubscriber, AnyError>>, i: nat, sends: nat,
                      failureAt: nat -> Option<AnyError>, prior: seq<Email.SentEmail>,
                      sent: seq<Email.SentEmail>, body: BodyData)
    requires i < |entries| && entries[i].Err?
    requires Progress(entries, i, sends, failureAt, prior, sent, body)
    ensures Progress(entries, i + 1, sends, failureAt, prior, sent, body)
  {
    RecipientsStep(entries, i);
  }

  /** A failing send to a valid entry is the first failure among all the
      recipients' sends, and it is that entry's. */
  lemma ProgressStops(entries: seq<Result<ConfirmedSubscriber, AnyError>>, i: nat, sends: nat,
                      failureAt: nat -> Option<AnyError>, prior: seq<Email.SentEmail>,
                      sent: seq<Email.SentEmail>, body: BodyData)
    requires i < |entries| && entries[i].Ok? && failureAt(sends).Some?
    requires Progress(entries, i, sends, failureAt, prior, sent, body)
    ensures var recipients := Recipients(entries);
      var k := FirstFailure(|recipients|, failureAt);
      k == sends && k < |recipients| && recipients[k] == entries[i].value.email
      && sent == prior + Issues(recipients[..k], body)
  {
    StopsAtFailedSend(entries, i, failureAt);
  }

  /** After every entry, all sends succeeded and every recipient got the
      issue. */
  lemma ProgressEnds(entries: seq<Result<ConfirmedSubscriber, AnyError>>, sends: nat,
                     failureAt: nat -> Option<AnyError>, prior: seq<Email.SentEmail>,
                     sent: seq<Email.SentEmail>, body: BodyData)
    requires Progress(entries, |entries|, sends, failureAt, prior, sent, body)
    ensures var recipients := Recipients(entries);
      FirstFailure(|recipients|, failureAt) == |recipients| && sent == prior + Issues(recipients, body)
  {
    AllSendsSucceeded(entries, failureAt);
  }

  lemma IssuesAppend(recipients: seq<SubscriberEmail>, recipient: SubscriberEmail, body: BodyData)
    ensures Issues(recipients + [recipient], body) == Issues(recipients, body) + [Issue(recipient, body)]
  {
  }

  /** One more successful send extends the outbox by that recipient's issue. */
  lemma OutboxGrows(prior: seq<Email.SentEmail>, recipients: seq<SubscriberEmail>, recipient: SubscriberEmail, body: BodyData)
    ensures (prior + Issues(recipients, body)) + [Issue(recipient, body)] == prior + Issues(recipients + [recipient], body)
  {
    IssuesAppend(recipients, recipient, body);
  }

  /** How one more entry extends the recipients seen so far. */
  lemma RecipientsStep(entries: seq<Result<ConfirmedSubscriber, AnyError>>, i: nat)
    requires i < |entries|
    ensures Recipients(entries[..i + 1])
      == Recipients(entries[..i]) + (if entries[i].Ok? then [entries[i].value.email] else [])
  {
    assert entries[..i + 1] == entries[..i] + [entries[i]];
    RecipientsAppend(entries[..i], entries[i]);
  }

  /** The send to entry `i` fails after every earlier send succeeded: it is
      the first failure, and the messages so far are those of the recipients
      before it. */
  lemma StopsAtFailedSend(entries: seq<Result<ConfirmedSubscriber, AnyError>>, i: nat, failureAt: nat -> Option<AnyError>)
    requires i < |entries| && entries[i].Ok?
    requires forall j :: 0 <= j < |Recipients(entries[..i])| ==> failureAt(j).None?
    requires failureAt(|Recipients(entries[..i])|).Some?
    ensures var recipients := Recipients(entries);
      var k := |Recipients(entries[..i])|;
      k < |recipients| && FirstFailure(|recipients|, failureAt) == k
      && recipients[..k] == Recipients(entries[..i])
      && recipients[k] == entries[i].value.email
  {
    RecipientsSplit(entries, i);
  }

  /** Every send succeeded: no failure among the recipients' sends, and the
      messages are those of all recipients. */
  lemma AllSendsSucceeded(entries: seq<Result<ConfirmedSubscriber, AnyError>>, failureAt: nat -> Option<AnyError>)
    requires forall j :: 0 <= j < |Recipients(entries[..|entries|])| ==> failureAt(j).None?
    ensures var recipients := Recipients(entries);
      FirstFailure(|recipients|, failureAt) == |recipients| && recipients[..|recipients|] == Recipients(entries[..|entries|])
  {
    assert entries[..|entries|] == entries;
  }

  /** The recipients before entry `i`, then entry `i`'s own, then the rest. */
  lemma RecipientsSplit(entries: seq<Result<ConfirmedSubscriber, AnyError>>, i: nat)
    requires i < |entries| && entries[i].Ok?
    ensures var prefix := Recipients(entries[..i]);
      |prefix| < |Recipients(entries)|
      && Recipients(entries)[..|prefix|] == prefix
      && Recipients(entries)[|prefix|] == entries[i].value.email
  {
    RecipientsConcat(entries[..i + 1], entries[i + 1..]);
    assert entries[..i + 1] + entries[i + 1..] == entries;
    assert entries[..i + 1] == entries[..i] + [entries[i]];
    RecipientsAppend(entries[..i], entries[i]);
  }

  lemma {:induction false} RecipientsConcat(a: seq<Result<ConfirmedSubscriber, AnyError>>, b: seq<Result<ConfirmedSubscriber, AnyError>>)
    ensures Recipients(a + b) == Recipients(a) + Recipients(b)
  {
    if b != [] {
      var init := b[..|b| - 1];
      RecipientsConcat(a, init);
      assert a + b == (a + init) + [b[|b| - 1]];
      RecipientsAppend(a + init, b[|b| - 1]);
      RecipientsAppend(init, b[|b| - 1]);
      assert b == init + [b[|b| - 1]];
    } else {
      assert a + b == a;
    }
  }
}

=== FILE: or_status.dfy ===
/** The `OrStatus` conversions of src/guards/mod.rs: an optional value or a
    fallible result becomes a result whose error pairs an HTTP status with an
    error chain, ready to be turned into a guard failure. */
module OrStatus {
  import opened Common

  /** The value an `Ok` carries, forgetting the error. */
  function Value<T, E>(r: Result<T, E>): (o: Option<T>)
    ensures o.Some? <==> r.Ok?
    ensures o.Some? ==> o.value == r.value
  {
    match r
    case Ok(v) => Some(v)
    case Err(_) => None
  }

  /** `Some(x)` becomes `Ok(x)`; `None` becomes the given status paired with
      an error whose only message is `context`. */
  function OptionOrStatus<T>(o: Option<T>, status: Status, context: string): (r: Result<T, (Status, AnyError)>)
    ensures Value(r) == o
    ensures r.Err? ==> r.error == (status, Message(context))
  {
    match o
    case Some(v) => Ok(v)
    case None => Err((status, Message(context)))
  }

  /** `Ok(x)` stays `Ok(x)`; `Err(e)` becomes the given status paired with `e`
      wrapped in the context message `context`. */
  function ResultOrStatus<T>(res: Result<T, DbError>, status: Status, context: string): (r: Result<T, (Status, AnyError)>)
    ensures Value(r) == Value(res)
    ensures res.Err? ==> r.Err? && r.error == (status, Context(context, Db(res.error)))
  {
    match res
    case Ok(v) => Ok(v)
    case Err(e) => Err((status, Context(context, Db(e))))
  }

  /** The innermost cause of an error chain. */
  function RootCause(e: AnyError): AnyError
  {
    match e
    case Context(_, source) => RootCause(source)
    case _ => e
  }

  /** Converting a failed result keeps the original error as the root cause
      of the chain: the context is added, never substituted. */
  lemma ResultOrStatusKeepsCause<T>(res: Result<T, DbError>, status: Status, context: string)
    requires res.Err?
    ensures RootCause(ResultOrStatus(res, status, context).error.1) == Db(res.error)
  {
  }
}

=== FILE: startup.dfy ===
/** The database connection of the service (`NewsletterDbConn` in
    src/startup.rs) as an in-memory store, and its `run_transaction`: run a
    body inside a transaction, commit its writes when it succeeds, roll them
    back when it fails, and choose which error the caller sees. */
module Startup {
  import opened Common
  import opened Models

  class NewsletterDbConn {
    var subscriptions: seq<Subscription>
    var subscriptionTokens: seq<SubscriptionToken>

    constructor(tables: Tables)
      ensures Snapshot() == tables
    {
      subscriptions := tables.subscriptions;
      subscriptionTokens := tables.subscriptionTokens;
    }

    /** The whole contents of the store. */
    function Snapshot(): (t: Tables)
      reads this
      ensures t.subscriptions == subscriptions && t.subscriptionTokens == subscriptionTokens
    {
      Tables(subscriptions, subscriptionTokens)
    }

    /** Runs `body` on the store inside a transaction.
        `body` maps the contents it sees to its result and the contents it
        leaves; `beginFailure` and `commitFailure` are the errors the
        database reports when opening or committing the transaction, if any.
        The body's own error reaches the caller unchanged; only an error of
        the transaction itself goes through `errorMapper`. Whatever the
        caller sees as an error, the store is as it was before. */
    method RunTransaction<T, E>(body: Tables -> (Result<T, E>, Tables), errorMapper: DbError -> E,
                                beginFailure: Option<DbError>, commitFailure: Option<DbError>)
      returns (r: Result<T, E>)
      modifies this
      ensures r.Err? ==> Snapshot() == old(Snapshot())
      ensures r.Ok? <==> beginFailure.None? && body(old(Snapshot())).0.Ok? && commitFailure.None?
      ensures r.Ok? ==> r.value == body(old(Snapshot())).0.value && Snapshot() == body(old(Snapshot())).1
      ensures beginFailure.Some? ==> r == Err(errorMapper(beginFailure.value))
      ensures beginFailure.None? && body(old(Snapshot())).0.Err? ==> r == Err(body(old(Snapshot())).0.error)
      ensures beginFailure.None? && body(old(Snapshot())).0.Ok? && commitFailure.Some? ==>
        r == Err(errorMapper(commitFailure.value))
    {
      var before := Snapshot();
      var closureError: Option<E> := None;
      // What the database's transaction reports: the body's value, or the
      // error that ended the transaction.
      var transaction: Result<T, DbError>;
      if beginFailure.Some? {
        transaction := Err(beginFailure.value);
      } else {
        var (result, after) := body(before);
        subscriptions, subscriptionTokens := after.subscriptions, after.subscriptionTokens;
        match result {
          case Err(e) =>
            closureError := Some(e);
            subscriptions, subscriptionTokens := before.subscriptions, before.subscriptionTokens;
            transaction := Err(RollbackTransaction);
          case Ok(v) =>
            if commitFailure.Some? {
              subscriptions, subscriptionTokens := before.subscriptions, before.subscriptionTokens;
              transaction := Err(commitFailure.value);
            } else {
              transaction := Ok(v);
            }
        }
      }
      match transaction {
        case Ok(v) =>
          r := Ok(v);
        case Err(dbError) =>
          r := if closureError.Some? then Err(closureError.value) else Err(errorMapper(dbError));
      }
    }
  }
}

=== FILE: subscriptions.dfy ===
/** The signup route (src/routes/subscriptions.rs): validate the submitted
    form, store the new subscriber, and send one welcome message with the
    confirmation link. */
module Subscriptions {
  import opened Common
  import opened Models
  import opened Domain
  import Email
  import Startup

  /** The fields of the submitted urlencoded body; a field may be absent. */
  datatype FormFields = FormFields(name: Option<string>, email: Option<string>)

  /** A body with both fields present. */
  datatype FormData = FormData(name: string, email: string)

  const ConfirmationLink := "https://my-api.com/subscriptions/confirm"
  const WelcomeSubject := "Welcome!"

  /** Reads the form: both fields must be present. A body without them is
      refused with 422, which the registered catcher turns into 400. */
  function ReadForm(fields: FormFields): (r: Result<FormData, Status>)
    ensures r.Ok? <==> fields.name.Some? && fields.email.Some?
    ensures r.Ok? ==> r.value == FormData(fields.name.value, fields.email.value)
    ensures r.Err? ==> r.error == UnprocessableEntity
  {
    if fields.name.Some? && fields.email.Some? then Ok(FormData(fields.name.value, fields.email.value))
    else Err(UnprocessableEntity)
  }

  /** The status the registered catcher sends for a refused request. */
  function Catch(status: Status): (r: Status)
    ensures status == UnprocessableEntity ==> r == BadRequest
    ensures status != UnprocessableEntity ==> r == status
  {
    if status == UnprocessableEntity then BadRequest else status
  }

  /** Validates a form: the email is parsed first, then the name; the first
      refusal is the error. */
  function TryFrom(rules: Rules, form: FormData): (r: Result<NewSubscriber, string>)
    ensures r.Ok? <==> rules.email.accepts(form.email) && rules.name.accepts(form.name)
    ensures r.Ok? ==> r.value.email.address == form.email && r.value.name.text == form.name
    ensures !rules.email.accepts(form.email) ==> r == Err(rules.email.reason(form.email))
    ensures rules.email.accepts(form.email) && !rules.name.accepts(form.name) ==> r == Err(rules.name.reason(form.name))
  {
    match ParseEmail(rules.email, form.email)
    case Err(e) => Err(e)
    case Ok(email) =>
      match ParseName(rules.name, form.name)
      case Err(e) => Err(e)
      case Ok(name) => Ok(NewSubscriber(email, name))
  }

  /** Whether `part` occurs somewhere in `s`. */
  ghost predicate Embeds(s: string, part: string) {
    exists before: string, after: string :: s == before + part + after
  }

  const HtmlBeforeLink := "Welcome to our newsletter!<br />Click <a href=\""
  const HtmlAfterLink := "\">here</a> to confirm your subscription."
  const PlainBeforeLink := "Welcome to our newsletter!\nVisit "
  const PlainAfterLink := " to confirm your subscription."

  /** The welcome message for a new subscriber: it goes to the subscriber's
      address and both of its bodies carry the confirmation link. */
  function ConfirmationEmail(recipient: SubscriberEmail): (m: Email.SentEmail)
    ensures m.recipient == recipient.address && m.subject == WelcomeSubject
    ensures Embeds(m.htmlContent, ConfirmationLink) && Embeds(m.textContent, ConfirmationLink)
  {
    Email.SentEmail(recipient.address, WelcomeSubject,
                    HtmlBeforeLink + ConfirmationLink + HtmlAfterLink,
                    PlainBeforeLink + ConfirmationLink + PlainAfterLink)
  }

  /** The row stored for a new subscriber. */
  function NewRow(subscriber: NewSubscriber, id: Uuid, now: Timestamp): (row: Subscription)
    ensures row.id == id && row.subscribedAt == now
    ensures row.email == subscriber.email.address && row.name == subscriber.name.text
    ensures row.status == Confirmed
  {
    Subscription(id, subscriber.email.address, subscriber.name.text, now, Confirmed)
  }

  /** The insert query: one row with the fresh id `id`, the subscriber's
      email and name, the time `now` and the status "confirmed". It is
      refused when the database fails it or when a key is taken; it then
      changes nothing. On success the number of rows inserted is 1. */
  method InsertSubscriber(conn: Startup.NewsletterDbConn, subscriber: NewSubscriber, id: Uuid, now: Timestamp,
                          failure: Option<DbError>)
    returns (r: Result<nat, DbError>)
    modifies conn
    ensures conn.subscriptionTokens == old(conn.subscriptionTokens)
    ensures r.Ok? <==> failure.None? && !Conflicts(old(conn.subscriptions), NewRow(subscriber, id, now))
    ensures r.Ok? ==> r.value == 1 && conn.subscriptions == old(conn.subscriptions) + [NewRow(subscriber, id, now)]
    ensures r.Err? ==> conn.subscriptions == old(conn.subscriptions)
    ensures UniqueKeys(old(conn.subscriptions)) ==> UniqueKeys(conn.subscriptions)
  {
    var row := NewRow(subscriber, id, now);
    if failure.Some? {
      return Err(failure.value);
    }
    if Conflicts(conn.subscriptions, row) {
      return Err(UniqueViolation("subscriptions"));
    }
    if UniqueKeys(conn.subscriptions) {
      AppendKeepsKeys(conn.subscriptions, row);
    }
    conn.subscriptions := conn.subscriptions + [row];
    r := Ok(1);
  }

  /** Sends the welcome message to the new subscriber. */
  method SendConfirmationEmail(outbox: Email.Outbox, subscriber: NewSubscriber, failure: Option<AnyError>)
    returns (r: Result<(), AnyError>)
    modifies outbox
    ensures failure.None? ==> r == Ok(()) && outbox.sent == old(outbox.sent) + [ConfirmationEmail(subscriber.email)]
    ensures failure.Some? ==> r == Err(failure.value) && outbox.sent == old(outbox.sent)
  {
    var m := ConfirmationEmail(subscriber.email);
    r := outbox.SendEmail(subscriber.email, m.subject, m.htmlContent, m.textContent, failure);
  }

  /** The route. A body with a missing field, or whose email or name is
      refused, is a 400 and touches nothing. A failed insert is a 500 and
      sends nothing. A failed send is a 500 but keeps the inserted row. The
      answer is 200 only when the row was inserted and the message sent. */
  method Subscribe(conn: Startup.NewsletterDbConn, outbox: Email.Outbox, rules: Rules, fields: FormFields,
                   id: Uuid, now: Timestamp, insertFailure: Option<DbError>, sendFailure: Option<AnyError>)
    returns (r: Result<(), Status>)
    modifies conn, outbox
    ensures conn.subscriptionTokens == old(conn.subscriptionTokens)
    ensures ReadForm(fields).Err? || TryFrom(rules, ReadForm(fields).value).Err? ==>
      r == Err(BadRequest) && conn.subscriptions == old(conn.subscriptions) && outbox.sent == old(outbox.sent)
    ensures ReadForm(fields).Ok? && TryFrom(rules, ReadForm(fields).value).Ok? ==>
      var subscriber := TryFrom(rules, ReadForm(fields).value).value;
      var row := NewRow(subscriber, id, now);
      if insertFailure.Some? || Conflicts(old(conn.subscriptions), row) then
        r == Err(InternalServerError) && conn.subscriptions == old(conn.subscriptions) && outbox.sent == old(outbox.sent)
      else
        conn.subscriptions == old(conn.subscriptions) + [row]
        && (sendFailure.Some? ==> r == Err(InternalServerError) && outbox.sent == old(outbox.sent))
        && (sendFailure.None? ==> r == Ok(()) && outbox.sent == old(outbox.sent) + [ConfirmationEmail(subscriber.email)])
    ensures UniqueKeys(old(conn.subscriptions)) ==> UniqueKeys(conn.subscriptions)
  {
    var form := ReadForm(fields);
    if form.Err? {
      return Err(Catch(form.error));
    }
    var parsed := TryFrom(rules, form.value);
    if parsed.Err? {
      return Err(BadRequest);
    }
    var subscriber := parsed.value;
    var inserted := InsertSubscriber(conn, subscriber, id, now, insertFailure);
    if inserted.Err? {
      return Err(InternalServerError);
    }
    var sent := SendConfirmationEmail(outbox, subscriber, sendFailure);
    if sent.Err? {
      return Err(InternalServerError);
    }
    r := Ok(());
  }
}

=== FILE: subscriptions_confirm.dfy ===
/** The confirmation route (src/routes/subscriptions_confirm.rs): the token in
    the query string names a subscriber through the subscription_tokens
    table, and that subscriber's status becomes "confirmed". */
module SubscriptionsConfirm {
  import opened Common
  import opened Models
  import Startup

  /** The subscriber named by the first token row (in table order) that
      carries `token`, if there is one. */
  function SubscriberIdForToken(tokens: seq<SubscriptionToken>, token: string): (r: Option<Uuid>)
    ensures r.None? <==> forall i :: 0 <= i < |tokens| ==> tokens[i].subscriptionToken != token
    ensures r.Some? ==>
      exists i :: 0 <= i < |tokens| && tokens[i] == SubscriptionToken(token, r.value)
        && forall j :: 0 <= j < i ==> tokens[j].subscriptionToken != token
  {
    if tokens == [] then None
    else if tokens[0].subscriptionToken == token then Some(tokens[0].subscriberId)
    else
      var r := SubscriberIdForToken(tokens[1..], token);
      if r.Some? then
        var i :| 0 <= i < |tokens[1..]| && tokens[1..][i] == SubscriptionToken(token, r.value)
          && forall j :: 0 <= j < i ==> tokens[1..][j].subscriptionToken != token;
        assert tokens[i + 1] == tokens[1..][i];
        assert forall j :: 0 < j < i + 1 ==> tokens[j] == tokens[1..][j - 1];
        r
      else
        assert forall i :: 0 < i < |tokens| ==> tokens[i] == tokens[1..][i - 1];
        r
  }

  /** The subscriptions table after setting the status of the rows with id
      `id` to "confirmed". */
  function MarkConfirmed(rows: seq<Subscription>, id: Uuid): (r: seq<Subscription>)
    ensures |r| == |rows|
    ensures forall i :: 0 <= i < |rows| && rows[i].id == id ==> r[i] == rows[i].(status := Confirmed)
    ensures forall i :: 0 <= i < |rows| && rows[i].id != id ==> r[i] == rows[i]
  {
    if rows == [] then []
    else [if rows[0].id == id then rows[0].(status := Confirmed) else rows[0]] + MarkConfirmed(rows[1..], id)
  }

  /** Confirming changes only the status column: ids, emails, names and
      subscription times stay as they were, so the keys stay unique. */
  lemma MarkConfirmedKeepsOtherColumns(rows: seq<Subscription>, id: Uuid)
    ensures forall i :: 0 <= i < |rows| ==>
      var r := MarkConfirmed(rows, id)[i];
      r.id == rows[i].id && r.email == rows[i].email && r.name == rows[i].name && r.subscribedAt == rows[i].subscribedAt
    ensures UniqueKeys(rows) ==> UniqueKeys(MarkConfirmed(rows, id))
  {
  }

  /** Confirming is idempotent: the status is set, not toggled. */
  lemma MarkConfirmedIdempotent(rows: seq<Subscription>, id: Uuid)
    ensures MarkConfirmed(MarkConfirmed(rows, id), id) == MarkConfirmed(rows, id)
  {
  }

  /** The lookup query: its error when the database fails it, otherwise the
      subscriber named by `token`. */
  method GetSubscriberIdFromToken(conn: Startup.NewsletterDbConn, token: string, failure: Option<DbError>)
    returns (r: Result<Option<Uuid>, DbError>)
    ensures failure.Some? ==> r == Err(failure.value)
    ensures failure.None? ==> r == Ok(SubscriberIdForToken(conn.subscriptionTokens, token))
  {
    if failure.Some? {
      return Err(failure.value);
    }
    r := Ok(SubscriberIdForToken(conn.subscriptionTokens, token));
  }

  /** The update query: sets the status of subscriber `subscriberId` to
      "confirmed", unless the database fails it. */
  method ConfirmSubscriber(conn: Startup.NewsletterDbConn, subscriberId: Uuid, failure: Option<DbError>)
    returns (r: Result<(), DbError>)
    modifies conn
    ensures failure.Some? ==> r == Err(failure.value) && conn.Snapshot() == old(conn.Snapshot())
    ensures failure.None? ==> r == Ok(())
    ensures failure.None? ==> conn.subscriptions == MarkConfirmed(old(conn.subscriptions), subscriberId)
    ensures conn.subscriptionTokens == old(conn.subscriptionTokens)
  {
    if failure.Some? {
      return Err(failure.value);
    }
    conn.subscriptions := MarkConfirmed(conn.subscriptions, subscriberId);
    r := Ok(());
  }

  /** The route. A missing token is a 400 and nothing is looked up; a failed
      lookup is a 500; an unknown token is a 401; a known token confirms its
      subscriber, and a failed update is a 500. Only a confirmation changes
      the store. */
  method Confirm(conn: Startup.NewsletterDbConn, subscriptionToken: Option<string>,
                 lookupFailure: Option<DbError>, updateFailure: Option<DbError>)
    returns (r: Result<(), Status>)
    modifies conn
    ensures subscriptionToken.None? ==> r == Err(BadRequest)
    ensures subscriptionToken.Some? && lookupFailure.Some? ==> r == Err(InternalServerError)
    ensures subscriptionToken.Some? && lookupFailure.None? ==>
      var named := SubscriberIdForToken(old(conn.subscriptionTokens), subscriptionToken.value);
      (named.None? ==> r == Err(Unauthorized))
      && (named.Some? && updateFailure.Some? ==> r == Err(InternalServerError))
      && (named.Some? && updateFailure.None? ==>
            r == Ok(()) && conn.subscriptions == MarkConfirmed(old(conn.subscriptions), named.value))
    ensures conn.subscriptionTokens == old(conn.subscriptionTokens)
    ensures r.Err? ==> conn.subscriptions == old(conn.subscriptions)
  {
    if subscriptionToken.None? {
      return Err(BadRequest);
    }
    var token := subscriptionToken.value;
    var lookup := GetSubscriberIdFromToken(conn, token, lookupFailure);
    if lookup.Err? {
      return Err(InternalServerError);
    }
    match lookup.value {
      case None =>
        r := Err(Unauthorized);
      case Some(subscriberId) =>
        var updated := ConfirmSubscriber(conn, subscriberId, updateFailure);
        r := if updated.Err? then Err(InternalServerError) else Ok(());
    }
  }
}

=== FILE: utf8.dfy ===
/** UTF-8 as defined in RFC 3629: the encoding of a Unicode scalar value into
    one to four octets (section 3) and the grammar of well-formed octet
    sequences (section 4). Dafny's `char` is a Unicode scalar value, so a
    string is exactly the text a successful check yields. */
module Utf8 {
  import opened Common

  /** UTF8-tail of section 4 of RFC 3629. */
  predicate IsTail(b: Byte) {
    0x80 <= b <= 0xBF
  }

  // Encoding (section 3 of RFC 3629): the bits of the scalar value, most
  // significant first, spread over a lead octet and continuation octets.

  /** The octets that encode `c`. */
  function EncodeChar(c: char): (r: seq<Byte>)
    ensures 1 <= |r| <= 4
  {
    var n := c as int;
    if n < 0x80 then [n]
    else if n < 0x800 then [0xC0 + n / 64, 0x80 + n % 64]
    else if n < 0x10000 then [0xE0 + n / 64 / 64, 0x80 + n / 64 % 64, 0x80 + n % 64]
    else [0xF0 + n / 64 / 64 / 64, 0x80 + n / 64 / 64 % 64, 0x80 + n / 64 % 64, 0x80 + n % 64]
  }

  /** The UTF-8 encoding of a string: the encodings of its characters in order. */
  function Encode(s: string): (b: seq<Byte>)
    ensures |s| <= |b|
  {
    if s == [] then [] else EncodeChar(s[0]) + Encode(s[1..])
  }

  // Decoding by the grammar of section 4 of RFC 3629.

  /** The second octet of a three-octet sequence: restricted after E0 (no
      overlong forms) and after ED (no surrogates). */
  predicate SecondOfThree(b0: Byte, b1: Byte) {
    if b0 == 0xE0 then 0xA0 <= b1 <= 0xBF
    else if b0 == 0xED then 0x80 <= b1 <= 0x9F
    else IsTail(b1)
  }

  /** The second octet of a four-octet sequence: restricted after F0 (no
      overlong forms) and after F4 (nothing above U+10FFFF). */
  predicate SecondOfFour(b0: Byte, b1: Byte) {
    if b0 == 0xF0 then 0x90 <= b1 <= 0xBF
    else if b0 == 0xF4 then 0x80 <= b1 <= 0x8F
    else IsTail(b1)
  }

  function Scalar2(b0: Byte, b1: Byte): char
    requires 0xC2 <= b0 <= 0xDF && IsTail(b1)
  {
    ((b0 - 0xC0) * 64 + (b1 - 0x80)) as char
  }

  function Scalar3(b0: Byte, b1: Byte, b2: Byte): char
    requires 0xE0 <= b0 <= 0xEF && SecondOfThree(b0, b1) && IsTail(b2)
  {
    ((b0 - 0xE0) * 4096 + (b1 - 0x80) * 64 + (b2 - 0x80)) as char
  }

  function Scalar4(b0: Byte, b1: Byte, b2: Byte, b3: Byte): char
    requires 0xF0 <= b0 <= 0xF4 && SecondOfFour(b0, b1) && IsTail(b2) && IsTail(b3)
  {
    ((b0 - 0xF0) * 262144 + (b1 - 0x80) * 4096 + (b2 - 0x80) * 64 + (b3 - 0x80)) as char
  }

  /** The scalar value encoded by the well-formed sequence that starts `b`,
      with that sequence's length; `None` when `b` does not start with one. */
  function DecodeFirst(b: seq<Byte>): (r: Option<(char, nat)>)
    requires |b| > 0
    ensures r.Some? ==> 1 <= r.value.1 <= |b| && r.value.1 <= 4
  {
    var b0 := b[0];
    if b0 <= 0x7F then Some((b0 as char, 1))
    else if 0xC2 <= b0 <= 0xDF then
      if 2 <= |b| && IsTail(b[1]) then Some((Scalar2(b0, b[1]), 2)) else None
    else if 0xE0 <= b0 <= 0xEF then
      if 3 <= |b| && SecondOfThree(b0, b[1]) && IsTail(b[2]) then Some((Scalar3(b0, b[1], b[2]), 3)) else None
    else if 0xF0 <= b0 <= 0xF4 then
      if 4 <= |b| && SecondOfFour(b0, b[1]) && IsTail(b[2]) && IsTail(b[3]) then
        Some((Scalar4(b0, b[1], b[2], b[3]), 4))
      else None
    else None
  }

  /** The text `b` encodes when it is a well-formed UTF-8 sequence, `None`
      otherwise. */
  function Decode(b: seq<Byte>): (r: Option<string>)
    ensures r.Some? ==> |r.value| <= |b| <= 4 * |r.value|
    decreases |b|
  {
    if b == [] then Some([])
    else
      match DecodeFirst(b)
      case None => None
      case Some((c, k)) =>
        match Decode(b[k..])
        case None => None
        case Some(rest) => Some([c] + rest)
  }

  // Arithmetic on the six-bit groups.

  lemma DivMod64(hi: int, lo: int)
    requires 0 <= lo < 64
    ensures (hi * 64 + lo) / 64 == hi && (hi * 64 + lo) % 64 == lo
  {
  }

  // Decoding the encoding of one character, by length.

  lemma DecodeFirstEncode2(c: char, rest: seq<Byte>)
    requires 0x80 <= c as int < 0x800
    ensures DecodeFirst(EncodeChar(c) + rest) == Some((c, 2))
  {
    var n := c as int;
    var b := EncodeChar(c) + rest;
    assert b[0] == 0xC0 + n / 64 && b[1] == 0x80 + n % 64;
    assert Scalar2(b[0], b[1]) as int == n;
  }

  lemma DecodeFirstEncode3(c: char, rest: seq<Byte>)
    requires 0x800 <= c as int < 0x10000
    ensures DecodeFirst(EncodeChar(c) + rest) == Some((c, 3))
  {
    var n := c as int;
    var q1, r0 := n / 64, n % 64;
    var q2, r1 := q1 / 64, q1 % 64;
    assert n == q2 * 4096 + r1 * 64 + r0;
    var b := EncodeChar(c) + rest;
    assert b[0] == 0xE0 + q2 && b[1] == 0x80 + r1 && b[2] == 0x80 + r0;
    assert SecondOfThree(b[0], b[1]);
    assert Scalar3(b[0], b[1], b[2]) as int == n;
  }

  lemma DecodeFirstEncode4(c: char, rest: seq<Byte>)
    requires 0x10000 <= c as int
    ensures DecodeFirst(EncodeChar(c) + rest) == Some((c, 4))
  {
    var n := c as int;
    var q1, r0 := n / 64, n % 64;
    var q2, r1 := q1 / 64, q1 % 64;
    var q3, r2 := q2 / 64, q2 % 64;
    assert n == q3 * 262144 + r2 * 4096 + r1 * 64 + r0;
    var b := EncodeChar(c) + rest;
    assert b[0] == 0xF0 + q3 && b[1] == 0x80 + r2 && b[2] == 0x80 + r1 && b[3] == 0x80 + r0;
    assert SecondOfFour(b[0], b[1]);
    assert Scalar4(b[0], b[1], b[2], b[3]) as int == n;
  }

  /** The decoder reads back exactly the octets of one encoded character. */
  lemma DecodeFirstEncode(c: char, rest: seq<Byte>)
    ensures DecodeFirst(EncodeChar(c) + rest) == Some((c, |EncodeChar(c)|))
  {
    var n := c as int;
    if n < 0x80 {
    } else if n < 0x800 {
      DecodeFirstEncode2(c, rest);
    } else if n < 0x10000 {
      DecodeFirstEncode3(c, rest);
    } else {
      DecodeFirstEncode4(c, rest);
    }
  }

  /** Round trip: the encoding of any text is well-formed and decodes to it. */
  lemma {:induction false} DecodeEncode(s: string)
    ensures Decode(Encode(s)) == Some(s)
  {
    if s != [] {
      var e := EncodeChar(s[0]);
      var b := Encode(s);
      assert b == e + Encode(s[1..]);
      DecodeFirstEncode(s[0], Encode(s[1..]));
      assert b[|e|..] == Encode(s[1..]);
      DecodeEncode(s[1..]);
      assert s == [s[0]] + s[1..];
    }
  }

  // Re-encoding what the decoder accepted, by length.

  lemma EncodeScalar2(b0: Byte, b1: Byte)
    requires 0xC2 <= b0 <= 0xDF && IsTail(b1)
    ensures EncodeChar(Scalar2(b0, b1)) == [b0, b1]
  {
    DivMod64(b0 - 0xC0, b1 - 0x80);
  }

  lemma EncodeScalar3(b0: Byte, b1: Byte, b2: Byte)
    requires 0xE0 <= b0 <= 0xEF && SecondOfThree(b0, b1) && IsTail(b2)
    ensures EncodeChar(Scalar3(b0, b1, b2)) == [b0, b1, b2]
  {
    var hi := (b0 - 0xE0) * 64 + (b1 - 0x80);
    var n := Scalar3(b0, b1, b2) as int;
    assert n == hi * 64 + (b2 - 0x80);
    DivMod64(hi, b2 - 0x80);
    DivMod64(b0 - 0xE0, b1 - 0x80);
    assert n / 64 / 64 == b0 - 0xE0;
  }

  lemma EncodeScalar4(b0: Byte, b1: Byte, b2: Byte, b3: Byte)
    requires 0xF0 <= b0 <= 0xF4 && SecondOfFour(b0, b1) && IsTail(b2) && IsTail(b3)
    ensures EncodeChar(Scalar4(b0, b1, b2, b3)) == [b0, b1, b2, b3]
  {
    var hi2 := (b0 - 0xF0) * 64 + (b1 - 0x80);
    var hi1 := hi2 * 64 + (b2 - 0x80);
    var n := Scalar4(b0, b1, b2, b3) as int;
    assert n == hi1 * 64 + (b3 - 0x80);
    DivMod64(hi1, b3 - 0x80);
    DivMod64(hi2, b2 - 0x80);
    DivMod64(b0 - 0xF0, b1 - 0x80);
    assert n / 64 / 64 / 64 == b0 - 0xF0;
  }

  /** What the decoder accepts as one character is that character's encoding. */
  lemma EncodeDecodeFirst(b: seq<Byte>)
    requires |b| > 0 && DecodeFirst(b).Some?
    ensures EncodeChar(DecodeFirst(b).value.0) == b[..DecodeFirst(b).value.1]
  {
    var b0 := b[0];
    if b0 <= 0x7F {
    } else if 0xC2 <= b0 <= 0xDF {
      EncodeScalar2(b0, b[1]);
    } else if 0xE0 <= b0 <= 0xEF {
      EncodeScalar3(b0, b[1], b[2]);
    } else {
      EncodeScalar4(b0, b[1], b[2], b[3]);
    }
  }

  /** Every octet string the decoder accepts is the encoding of its result. */
  lemma {:induction false} EncodeDecode(b: seq<Byte>)
    requires Decode(b).Some?
    ensures Encode(Decode(b).value) == b
    decreases |b|
  {
    if b != [] {
      var c, k := DecodeSplit(b);
      var tail := b[k..];
      EncodeDecode(tail);
      EncodeCons(c, Decode(tail).value);
      assert b == b[..k] + tail;
    }
  }

  /** An accepted non-empty octet string is one character's encoding
      followed by an accepted rest. */
  lemma DecodeSplit(b: seq<Byte>) returns (c: char, k: nat)
    requires b != [] && Decode(b).Some?
    ensures 0 < k <= |b| && EncodeChar(c) == b[..k]
    ensures Decode(b[k..]).Some? && Decode(b).value == [c] + Decode(b[k..]).value
  {
    c, k := DecodeFirst(b).value.0, DecodeFirst(b).value.1;
    EncodeDecodeFirst(b);
  }

  lemma EncodeCons(c: char, t: string)
    ensures Encode([c] + t) == EncodeChar(c) + Encode(t)
  {
    var s := [c] + t;
    assert s[0] == c && s[1..] == t;
  }

  /** `Decode` is exactly the inverse of `Encode`. */
  lemma DecodeIsInverse(b: seq<Byte>, s: string)
    ensures Decode(b) == Some(s) <==> Encode(s) == b
  {
    if Decode(b) == Some(s) {
      EncodeDecode(b);
    }
    if Encode(s) == b {
      DecodeEncode(s);
    }
  }
}
